=== FILE: README.md ===
# Lecture ordering and admin record rules, in Dafny

This project models two parts of a course platform's backend and proves properties about them.

1. **The lecture ordering engine** (`src/repositories/lectureRepository.ts`).
   - Every lecture belongs to a section and has an integer position, `order`.
   - Moving a lecture is done in two steps. First, range updates shift the positions of its neighbours. Then one write gives the moved lecture its new place.
   - The lecture collection is a sequence of lecture records.
   - Each `updateMany` with `$inc` becomes a pure function over that sequence, and so does each `findByIdAndUpdate`.
   - The central invariant: in every section with N lectures, the positions are exactly `{0, …, N-1}` as a multiset. In the model this is `LectureStore.SectionContiguous` and `LectureStore.Contiguous`.
   - For the cross-section move, the code and its evident design differ. It is modelled twice:
     - once as designed (`MoveAcrossSections`), with the invariant proved;
     - once as written (`MoveAcrossSectionsAsWritten`), with concrete stores on which it breaks the invariant.
2. **The admin service's record rules** (`src/services/adminService.ts`).
   - The pagination arithmetic.
   - The instructor-verification state changes.
   - The user and category block toggles.
   - Category name uniqueness on create and edit.
   - Users and categories are maps from identifiers to records.
   - Every operation returns the store it leaves behind together with its result or error, so a failure visibly changes nothing.

Modules:

- `Wrappers` holds `Option` and `Result`.
- `Ranges` holds integer ranges, maps over sequences and the multiset facts about shifting a range.
- `LectureStore` holds the lecture record, the store, update filters, `UpdateMany`, `FindByIdAndUpdate` and the ordering invariant.
- `OrderingFacts` holds the general lemmas about section positions.
- `LectureRepository` holds the repository operations.
- `LectureOrdering` holds the invariant-preservation proofs.
- `LectureListing` holds the sorted course listing.
- `CrossSectionAsWritten` holds the counterexamples for the literal cross-section move.
- `Pagination` and `AdminService` model the admin service.

## Model

| member | source | states |
|---|---|---|
| LectureRepository.Create | src/repositories/lectureRepository.ts:13-29 | A new lecture is appended with the given id, section, course and position, the caller's title, video URL and duration, and status pending. Reusing an identifier is the single database error (status 500). Creation keeps ids unique. |
| LectureRepository.CountDocumentWithSectionId | src/repositories/lectureRepository.ts:150-162 | The count equals the number of the section's lectures, the length of its position list. |
| LectureRepository.AppendLecture | src/repositories/lectureRepository.ts:13-29 | Counting the section, then creating at that count, puts the new lecture in the section at position N. It fails exactly when the id is taken. |
| LectureOrdering.AppendLectureKeepsOrdering | src/repositories/lectureRepository.ts:150-162 | Creating a lecture at its section's count keeps every section contiguous. It grows that section by one, with the new lecture at position N. |
| LectureRepository.MoveWithinSection | src/repositories/lectureRepository.ts:47-84 | Moving earlier adds 1 to the positions in [target, dragged) of that section only. Moving later or in place subtracts 1 from (dragged, target]. Every other lecture and field is unchanged. The dragged lecture ends at target. The call returns the document as it was before the final write. |
| LectureOrdering.MoveWithinSectionKeepsOrdering | src/repositories/lectureRepository.ts:47-75 | Suppose ids are unique, every section is contiguous, the lecture sits at `dragged` in its section, and the target is below N. Then the move keeps every section contiguous. |
| LectureOrdering.MoveWithinSectionLandsAtTarget | src/repositories/lectureRepository.ts:47-75 | Under the same conditions, ids stay unique and every section keeps its size. The lecture ends at the target position of its section. |
| LectureOrdering.MovedSectionWithin | src/repositories/lectureRepository.ts:54-75 | Suppose the moved section is contiguous, the lecture sits at `dragged` and the target is below N. If the others shift as the range updates say and the lecture is written at the target, the section keeps its size and stays contiguous. |
| LectureOrdering.UntouchedSection | src/repositories/lectureRepository.ts:55-69 | A section that holds the written lecture neither before nor after, and whose lectures the shifts leave alone, keeps its size. It is contiguous after exactly when it was before. |
| LectureOrdering.MoveToOwnPositionIsNoOp | src/repositories/lectureRepository.ts:62-75 | Dropping a lecture on its own position leaves the store exactly as it was. |
| LectureRepository.MoveAcrossSections | src/repositories/lectureRepository.ts:86-115 | The designed move: the source section's positions above `dragged` lose 1, the target section's positions from `target` up gain 1, and the lecture gets the target section and position. Nothing else changes. |
| LectureOrdering.MoveAcrossSectionsKeepsOrdering | src/repositories/lectureRepository.ts:94-107 | Under the same preconditions, with the target up to N (tail append), both sections stay contiguous and every other section is untouched. The source shrinks by one, the target grows by one, and the lecture sits at the target. |
| LectureRepository.MoveAcrossSectionsAsWritten | src/repositories/lectureRepository.ts:94-107 | The literal move. Its range filters carry no section condition: under strict-query stripping they touch every lecture, otherwise none. The final write changes only the section, so the lecture keeps whatever position the range updates left it: its old one when the keys are sent, that position shifted when they are stripped. |
| CrossSectionAsWritten.AsWrittenBreaksOrdering | src/repositories/lectureRepository.ts:94-102 | A contiguous store with unique ids, on which the literal move of lecture 1 from the head of A to the head of B leaves both A and B non-contiguous under either filter treatment. |
| CrossSectionAsWritten.AsWrittenShiftsUnrelatedSection | src/repositories/lectureRepository.ts:94-102 | With the section key stripped, the literal move shifts a lecture of a third section that the move does not concern, breaking that section too. |
| CrossSectionAsWritten.AsWrittenKeepsOldPosition | src/repositories/lectureRepository.ts:103-107 | In every store, when the filter keys reach the database unmatched, the moved lecture lands in the target section at its old position. The designed move puts it at the requested target. |
| CrossSectionAsWritten.AsWrittenMissesTarget | src/repositories/lectureRepository.ts:103-107 | A store in which the literal move leaves the lecture away from the requested position at the head of the target section. |
| CrossSectionAsWritten.DesignedMoveKeepsSampleOrdered | src/repositories/lectureRepository.ts:94-107 | On the same store, the designed move leaves both sections contiguous. |
| CrossSectionAsWritten.DesignedMoveHitsTarget | src/repositories/lectureRepository.ts:103-107 | On the same store, the designed move puts the lecture at the head of the target section. |
| LectureListing.GetLecturesWithCourseId | src/repositories/lectureRepository.ts:117-129 | The listing is sorted by ascending position. It holds exactly the course's lectures, with multiplicity. |
| LectureListing.ListingReadsSectionInOrder | src/repositories/lectureRepository.ts:117-129 | For a contiguous section of the course, the section's positions in the listing read exactly 0, 1, …, N-1 in order. |
| LectureRepository.UpdateLectureWithProcessedKey | src/repositories/lectureRepository.ts:131-148 | Only the found lecture's video key and status change, and the updated document is returned. An unknown id changes nothing and returns no document. |
| LectureOrdering.ProcessedKeyKeepsOrdering | src/repositories/lectureRepository.ts:136-140 | Marking a lecture processed leaves every section's positions unchanged and is idempotent. |
| LectureRepository.EditLecture | src/repositories/lectureRepository.ts:164-181 | Only the found lecture's title, video and duration change, and the updated document is returned. An unknown id changes nothing. |
| LectureOrdering.EditLectureKeepsOrdering | src/repositories/lectureRepository.ts:164-181 | Editing leaves every section's positions unchanged. |
| Pagination.Skip | src/services/adminService.ts:26 | The offset `(page-1)*limit` used by all four listings (also :48, :97, :178): the next page starts `limit` records later, and for page ≥ 1 and limit ≥ 0 the offset is not negative. |
| Pagination.Fetch | src/services/adminService.ts:31-36 | A paged repository query skips `skip` records, capped at the total, and then returns `size` records or as many as remain. A size of 0 returns the rest. The paging semantics are assumed, not read from the repository. |
| Pagination.TotalPages | src/services/adminService.ts:39 | For limit > 0, the page count is the least k ≥ 0 with k·limit ≥ total. For a negative limit it is the ceiling of the negative quotient. For a zero limit it is infinity, or not-a-number when total is 0. |
| Pagination.EveryRecordOnOnePage | src/services/adminService.ts:26-39 | With offsets `(page-1)*limit`, each record lies on exactly one page, and that page is between 1 and the reported page count. |
| Pagination.PagesAreAdjacent | src/services/adminService.ts:96-100 | Page p+1 starts where page p ends, so consecutive pages neither overlap nor leave a gap. |
| Pagination.PageWindow | src/services/adminService.ts:96-100 | A page starts at offset `(page-1)*limit`, capped at the total, and holds at most `limit` records. |
| Pagination.ReviewPageAsWritten | src/services/adminService.ts:176-189 | As written, the review listing fetches from the page's offset to the end of the matching records, whatever the limit. |
| Pagination.ReviewPageOverflows | src/services/adminService.ts:47-61 | With 25 pending requests and a limit of 10, page 1 as written returns 25 records. A page window returns 10, and the page count is 3. |
| AdminService.RejectVerificationRequest | src/services/adminService.ts:69-80 | A missing user gives "User Not Found" (400) and changes nothing. Otherwise verified becomes "rejected" and the reason is recorded. The role, block flag and every other user are unchanged. |
| AdminService.ApproveVerificationRequest | src/services/adminService.ts:82-94 | A missing user gives "User Not Found" (400) and changes nothing. Otherwise verified becomes "verified", the role becomes "instructor" and the rejection reason is removed. Every other user is unchanged. |
| AdminService.ApprovalOverridesRejection | src/services/adminService.ts:75-90 | Approving after a rejection gives the same store and result as approving directly. |
| AdminService.ApprovalIsIdempotent | src/services/adminService.ts:88-91 | Approving twice gives the same store as approving once. |
| AdminService.BlockUser | src/services/adminService.ts:111-122 | A missing user gives NotFound (404) and changes nothing. Otherwise only the user's block flag is negated. Their refresh token is removed exactly when they become blocked, and every other token is untouched. |
| AdminService.BlockUserTwiceRestoresUsers | src/services/adminService.ts:116-120 | Toggling twice restores every user record. The token set loses exactly that user's token. |
| AdminService.BlockCategory | src/services/adminService.ts:124-132 | A missing category gives "Category Not Found" (404) and changes nothing. Otherwise only its block flag is negated. |
| AdminService.BlockCategoryTwiceRestores | src/services/adminService.ts:129 | Toggling twice restores the category store. |
| AdminService.CreateCategory | src/services/adminService.ts:134-143 | The operation fails with the 409 conflict exactly when some category already has the name, and then nothing changes. Otherwise exactly one category, unblocked, is added under the new id. |
| AdminService.CreateKeepsNamesUnique | src/services/adminService.ts:135-141 | Creation preserves the property that no two categories share a name. |
| AdminService.EditCategory | src/services/adminService.ts:144-170 | The lookup by the new name is a parameter: a category with that name, or none when no category has it. An unknown id gives a 404. A 409 conflict is raised exactly when the lookup returns a different category, which then has the new name. Otherwise only that category's name and description change. |
| AdminService.EditKeepsNamesUnique | src/services/adminService.ts:148-170 | Editing preserves the property that no two categories share a name, whichever category the lookup returns. |
| AdminService.RenameToOwnNameAllowed | src/services/adminService.ts:159 | Under unique names, saving a category under its own current name always succeeds, because the lookup can only return the category itself. |
| AdminService.LookupFindsOtherOwner | src/services/adminService.ts:155-159 | Under unique names, the lookup returns a category other than the edited one exactly when some other category has the new name. |
| AdminService.EditConflictsExactlyOnOtherOwner | src/services/adminService.ts:148-164 | Under unique names, an edit fails exactly when the id is unknown or another category already has the new name, whatever the lookup answers. |

## Left out

- Database and cache I/O are not modelled. Each repository or cache call is one atomic step over the in-memory store. The failures of the other calls are not modelled; only the duplicate-id failure of `create` is.
- Concurrency and partial failure of the multi-write moves are not modelled. Each move is one step from the store before to the store after.
- `findById` (src/repositories/lectureRepository.ts:30-45) is not modelled. It is a read that changes nothing and holds no ordering logic.
- LectureRepository.Create: the caller chooses the position, and the caller that computes it is not part of this model. `AppendLecture` models the intended composition with the section count. The declared parameter type of `create` lists only `title`, `videoUrl`, `duration` and `order`. The model's `section` and `course` parameters assume that the caller passes an object that also carries `sectionId` and `courseId`, which the schema then stores.
- LectureRepository.Create: the status default (pending) comes from the lecture schema, which is not part of this model.
- LectureRepository.MoveWithinSection: positions (`order`, `draggedOrder`, `targetOrder`) are integers. The source takes them as JavaScript numbers and passes them unchecked into the range filters and the final write. Non-integral, non-finite or non-numeric positions are not modelled.
- LectureRepository.MoveAcrossSections: the same holds for `draggedLectureOrder` and `targetOrder`. They are integers here, and non-integral or non-numeric values are not modelled.
- LectureRepository.Create: the position and `duration` are integers, while the source takes any JavaScript number. Non-integral values are not modelled.
- LectureRepository.EditLecture: `duration` is an integer, while the source takes any JavaScript number. Non-integral values are not modelled.
- LectureRepository.MoveWithinSection: it returns the pre-update document because the final write lacks the "return new" option. The model records this but proves nothing about callers that read the result.
- LectureRepository.MoveAcrossSectionsAsWritten: it is parameterised by how the object mapper treats the filter keys `draggedSectionId`/`targetSectionId`. They are either stripped (strict query) or sent and never matched. The mapper's configuration is not part of this model.
- Pagination.TotalPages: `Math.ceil` over floating-point division is modelled as integer ceiling division on integer operands. The `limit` from the query string is assumed to be an integer. Non-integral or non-numeric limits are not modelled.
- Pagination.Fetch: the repository queries (`fetchUsersWithPagination`, `fetchCategoryWithPagination`, `fetchUsersWithFilters`, `fetchPaginatedCoursesWithFilters`) are not part of this model. `Fetch` assumes their last argument is a page size applied after the skip, with 0 meaning no limit, as a database query's limit behaves. `PageWindow` takes a non-negative limit, so negative limits, which `TotalPages` does model, are not modelled for the records a page returns.
- Pagination.PageWindow: the page number must be at least 1. A page below 1 gives a negative skip, whose treatment belongs to the database and is not modelled.
- The `search` filter of `getUsers` (src/services/adminService.ts:31-36) is not modelled. The page count at :27-30 counts every user with the role, while the fetch filters on both role and search. With a non-empty search, `totalPages` therefore counts users that no page returns, and the last pages can be empty. `Pagination.TotalPages` and `Pagination.EveryRecordOnOnePage` describe `getUsers` exactly only when the search is empty.
- `rejectCourseReviewRequest` and `approveCourseReviewRequest` (src/services/adminService.ts:199-212) are not modelled. They only delegate to the course repository, which is not part of this model, and return a constant.
- AdminService.CreateCategory: the identifier the database allocates is a parameter, required to be unused. The new category is unblocked: that default comes from the category schema, which is not part of this model, since the service passes only the name and description.
- AdminService.EditCategory: the answer of `findByName` is a parameter. It may be any category with the name, because which duplicate the database returns is not part of this model. On a store with unique names the answer is forced, and the conflict matches the check against every other category (`LookupFindsOtherOwner`).
- AdminService.EditCategory: the final "Category not found" branch (src/services/adminService.ts:171-173) is not modelled. It is reachable only if the category disappears between the existence check and the update, which is a concurrent interleaving.
- AdminService.ApproveVerificationRequest: removing the rejection reason models `delete user.rejectedReason` (src/services/adminService.ts:89) with plain-object semantics, where the field is gone when the user is saved. The user repository and schema are not part of this model. If the user is an object-mapper document on which `delete` leaves a schema field in place, the stored reason would survive approval, and `ApprovalOverridesRejection` would not hold of the program.
- User `role` and `verified` are strings, because the user schema is not part of this model. Name comparison is exact string equality.

## Findings

| source | as written | input that shows it | evidently intended | confidence | as-written member | corrected member |
|---|---|---|---|---|---|---|
| src/repositories/lectureRepository.ts:94-102 | The two range updates filter on `draggedSectionId` and `targetSectionId`, which lectures do not have. The shifts then hit every lecture, or none. | Section A holds lectures 1 at 0 and 2 at 1, B holds 3 at 0, and C holds 4 at 0. Move lecture 1 from A position 0 to B position 0. A is left with {1} and B with two lectures at one position. With the key stripped, C becomes {1} too. | Filter on `sectionId: draggedSectionId` and `sectionId: targetSectionId`. | high, not executed | CrossSectionAsWritten.AsWrittenBreaksOrdering | LectureOrdering.MoveAcrossSectionsKeepsOrdering |
| src/repositories/lectureRepository.ts:103-107 | The final write sets only `sectionId`, so the moved lecture keeps whatever position the range updates left it (its old one when the filter keys are sent) rather than taking the target position. | Same store. Move lecture 2 from A position 1 to B position 0: it ends at position 1 or 2 of B, not 0. | Also set `order: targetOrder`. | high, not executed | CrossSectionAsWritten.AsWrittenMissesTarget | CrossSectionAsWritten.DesignedMoveHitsTarget |
| src/services/adminService.ts:54-58 | The verification and course-review listings pass `totalDocuments` as the fetch size instead of `limit` (also at :184-189). | 25 pending records, page 1, limit 10: 25 records are returned while 3 pages are reported. | Pass `limit` as the fetch size. | medium, not executed: the fetch signature is inferred from `getUsers`, which passes `limit` in that position | Pagination.ReviewPageOverflows | Pagination.PageWindow |

=== FILE: admin_service.dfy ===
/** The admin service's record rules: instructor verification, the block
    toggles, and category name uniqueness, over maps from identifiers to
    records. Every operation returns the store it leaves behind together with
    its result, so that a failure visibly changes nothing. */
module AdminService {
  import opened Wrappers

  type UserId = nat
  type CategoryId = nat

  /** The user fields the admin service reads or writes. `verified` is one of
      "pending", "verified", "rejected"; `role` one of "student",
      "instructor", "admin". */
  datatype User = User(role: string, verified: string, rejectedReason: Option<string>, isBlocked: bool)

  type Users = map<UserId, User>

  datatype Category = Category(name: string, description: string, isBlocked: bool)

  type Categories = map<CategoryId, Category>

  /** The application errors the service throws, with their HTTP status. */
  datatype AdminError =
    | BadRequest(message: string)
    | NotFound(detail: Option<string>)
    | Conflict(message: string)
  {
    function Status(): int {
      match this
      case BadRequest(_) => 400
      case NotFound(_) => 404
      case Conflict(_) => 409
    }
  }

  /** The store an operation leaves behind, and what it returns or throws. */
  datatype Reply<S, T> = Reply(store: S, result: Result<T, AdminError>)

  const UserNotFound := BadRequest("User Not Found")

  // ---------------------------------------------------------------------------
  // Instructor verification

  /** Rejects a user's verification request, recording the reason; the role is
      left as it was. */
  function RejectVerificationRequest(users: Users, reason: string, id: UserId): (r: Reply<Users, User>)
    ensures id !in users <==> r.result.Failure?
    ensures r.result.Failure? ==> r.store == users && r.result.error == UserNotFound
    ensures r.result.Failure? ==> r.result.error.Status() == 400
    ensures r.result.Success? ==>
      var u := r.result.value;
      && r.store.Keys == users.Keys
      && r.store[id] == u
      && u.verified == "rejected"
      && u.rejectedReason == Some(reason)
      && u.role == users[id].role
      && u.isBlocked == users[id].isBlocked
      && (forall k :: k in users && k != id ==> r.store[k] == users[k])
  {
    if id !in users then Reply(users, Failure(UserNotFound))
    else
      var u := users[id].(verified := "rejected", rejectedReason := Some(reason));
      Reply(users[id := u], Success(u))
  }

  /** Approves a user's verification request: the user becomes a verified
      instructor and any earlier rejection reason is removed. */
  function ApproveVerificationRequest(users: Users, id: UserId): (r: Reply<Users, User>)
    ensures id !in users <==> r.result.Failure?
    ensures r.result.Failure? ==> r.store == users && r.result.error == UserNotFound
    ensures r.result.Failure? ==> r.result.error.Status() == 400
    ensures r.result.Success? ==>
      var u := r.result.value;
      && r.store.Keys == users.Keys
      && r.store[id] == u
      && u.verified == "verified"
      && u.rejectedReason.None?
      && u.role == "instructor"
      && u.isBlocked == users[id].isBlocked
      && (forall k :: k in users && k != id ==> r.store[k] == users[k])
  {
    if id !in users then Reply(users, Failure(UserNotFound))
    else
      var u := users[id].(verified := "verified", rejectedReason := None, role := "instructor");
      Reply(users[id := u], Success(u))
  }

  /** Approval overwrites every field a rejection writes, so approving after a
      rejection leaves the same store as approving straight away. */
  lemma ApprovalOverridesRejection(users: Users, reason: string, id: UserId)
    ensures ApproveVerificationRequest(RejectVerificationRequest(users, reason, id).store, id)
         == ApproveVerificationRequest(users, id)
  {
    if id in users {
      var rejected := RejectVerificationRequest(users, reason, id).store;
      assert rejected[id].(verified := "verified", rejectedReason := None, role := "instructor")
          == users[id].(verified := "verified", rejectedReason := None, role := "instructor");
      assert rejected[id := users[id].(verified := "verified", rejectedReason := None, role := "instructor")]
          == users[id := users[id].(verified := "verified", rejectedReason := None, role := "instructor")];
    }
  }

  /** Approving twice leaves the same store as approving once. */
  lemma ApprovalIsIdempotent(users: Users, id: UserId)
    ensures var once := ApproveVerificationRequest(users, id).store;
      ApproveVerificationRequest(once, id).store == once
  {
    var once := ApproveVerificationRequest(users, id).store;
    if id in users {
      assert once[id := once[id]] == once;
    }
  }

  // ---------------------------------------------------------------------------
  // Blocking

  /** The users store together with the set of users that hold a cached
      refresh token. */
  datatype Session = Session(users: Users, tokens: set<UserId>)

  /** Toggles a user's block flag; a user who becomes blocked loses the cached
      refresh token, a user who becomes unblocked keeps whatever is cached. */
  function BlockUser(s: Session, id: UserId): (r: Reply<Session, User>)
    ensures id !in s.users <==> r.result.Failure?
    ensures r.result.Failure? ==> r.store == s && r.result.error == NotFound(None)
    ensures r.result.Failure? ==> r.result.error.Status() == 404
    ensures r.result.Success? ==>
      var u := r.result.value;
      && r.store.users.Keys == s.users.Keys
      && r.store.users[id] == u
      && u.isBlocked == !s.users[id].isBlocked
      && u.(isBlocked := s.users[id].isBlocked) == s.users[id]
      && (forall k :: k in s.users && k != id ==> r.store.users[k] == s.users[k])
      && (id in r.store.tokens <==> id in s.tokens && !u.isBlocked)
      && (forall k :: k != id ==> (k in r.store.tokens <==> k in s.tokens))
  {
    if id !in s.users then Reply(s, Failure(NotFound(None)))
    else
      var u := s.users[id].(isBlocked := !s.users[id].isBlocked);
      var tokens := if u.isBlocked then s.tokens - {id} else s.tokens;
      Reply(Session(s.users[id := u], tokens), Success(u))
  }

  /** Blocking twice restores every user; the only lasting effect is that the
      user's refresh token is gone if either step blocked them. */
  lemma BlockUserTwiceRestoresUsers(s: Session, id: UserId)
    ensures var twice := BlockUser(BlockUser(s, id).store, id).store;
      && twice.users == s.users
      && twice.tokens == if id in s.users then s.tokens - {id} else s.tokens
  {
    if id in s.users {
      var once := BlockUser(s, id).store;
      var twice := BlockUser(once, id).store;
      assert twice.users == s.users by {
        assert twice.users[id] == s.users[id];
      }
    }
  }

  /** Toggles a category's block flag. */
  function BlockCategory(cats: Categories, id: CategoryId): (r: Reply<Categories, Category>)
    ensures id !in cats <==> r.result.Failure?
    ensures r.result.Failure? ==> r.store == cats && r.result.error == NotFound(Some("Category Not Found"))
    ensures r.result.Failure? ==> r.result.error.Status() == 404
    ensures r.result.Success? ==>
      var c := r.result.value;
      && r.store.Keys == cats.Keys
      && r.store[id] == c
      && c.isBlocked == !cats[id].isBlocked
      && c.(isBlocked := cats[id].isBlocked) == cats[id]
      && (forall k :: k in cats && k != id ==> r.store[k] == cats[k])
  {
    if id !in cats then Reply(cats, Failure(NotFound(Some("Category Not Found"))))
    else
      var c := cats[id].(isBlocked := !cats[id].isBlocked);
      Reply(cats[id := c], Success(c))
  }

  /** Blocking a category twice restores the store. */
  lemma BlockCategoryTwiceRestores(cats: Categories, id: CategoryId)
    ensures BlockCategory(BlockCategory(cats, id).store, id).store == cats
  {
    if id in cats {
      var twice := BlockCategory(BlockCategory(cats, id).store, id).store;
      assert twice[id] == cats[id];
    }
  }

  // ---------------------------------------------------------------------------
  // Category names

  /** Some category is called `name`. Names are compared exactly. */
  predicate NameTaken(cats: Categories, name: string) {
    exists k :: k in cats && cats[k].name == name
  }

  /** Some category other than `id` is called `name`. */
  predicate NameTakenByOther(cats: Categories, id: CategoryId, name: string) {
    exists k :: k in cats && k != id && cats[k].name == name
  }

  /** No two categories share a name. */
  predicate NamesUnique(cats: Categories) {
    forall j, k :: j in cats && k in cats && cats[j].name == cats[k].name ==> j == k
  }

  /** What a lookup by name may answer: some category with that name, or
      nothing when no category has it. Which one it picks among several is
      the database's choice. */
  predicate LookupByName(cats: Categories, name: string, found: Option<CategoryId>) {
    match found
    case Some(k) => k in cats && cats[k].name == name
    case None => !NameTaken(cats, name)
  }

  /** Under unique names, the single category a lookup by name returns is a
      different category exactly when some other category has the name, so the
      lookup's answer and the check against every other category agree. */
  lemma LookupFindsOtherOwner(cats: Categories, id: CategoryId, name: string, found: Option<CategoryId>)
    requires NamesUnique(cats)
    requires LookupByName(cats, name, found)
    ensures (found.Some? && found.value != id) <==> NameTakenByOther(cats, id, name)
  {
    if NameTakenByOther(cats, id, name) {
      var k :| k in cats && k != id && cats[k].name == name;
      assert NameTaken(cats, name);
      assert found.value == k;
    }
  }

  /** Creates a category under the identifier the database allocates, unless
      the name is already in use. */
  function CreateCategory(cats: Categories, name: string, description: string, newId: CategoryId)
    : (r: Reply<Categories, Category>)
    requires newId !in cats
    ensures r.result.Failure? <==> NameTaken(cats, name)
    ensures r.result.Failure? ==> r.store == cats && r.result.error == Conflict("Category already exists")
    ensures r.result.Failure? ==> r.result.error.Status() == 409
    ensures r.result.Success? ==>
      && r.store.Keys == cats.Keys + {newId}
      && |r.store| == |cats| + 1
      && r.store[newId] == r.result.value
      && r.result.value == Category(name, description, false)
      && (forall k :: k in cats ==> r.store[k] == cats[k])
  {
    if NameTaken(cats, name) then Reply(cats, Failure(Conflict("Category already exists")))
    else
      var c := Category(name, description, false);
      Reply(cats[newId := c], Success(c))
  }

  /** Renames and re-describes a category, unless the id is unknown or the
      category the lookup by the new name returns is a different one. */
  function EditCategory(cats: Categories, id: CategoryId, name: string, description: string,
                        found: Option<CategoryId>): (r: Reply<Categories, Category>)
    requires LookupByName(cats, name, found)
    ensures r.result.Failure? <==> id !in cats || (found.Some? && found.value != id)
    ensures r.result.Failure? ==> r.store == cats
    ensures id !in cats ==> r.result == Failure(NotFound(Some("Category doesn't exist")))
    ensures id in cats && found.Some? && found.value != id ==>
      && NameTakenByOther(cats, id, name)
      && r.result == Failure(Conflict("Category with this name already exists"))
    ensures r.result.Failure? ==> r.result.error.Status() == (if id in cats then 409 else 404)
    ensures r.result.Success? ==>
      var c := r.result.value;
      && r.store.Keys == cats.Keys
      && r.store[id] == c
      && c.name == name && c.description == description
      && c.isBlocked == cats[id].isBlocked
      && (forall k :: k in cats && k != id ==> r.store[k] == cats[k])
  {
    if id !in cats then Reply(cats, Failure(NotFound(Some("Category doesn't exist"))))
    else if found.Some? && found.value != id then
      Reply(cats, Failure(Conflict("Category with this name already exists")))
    else
      var c := cats[id].(name := name, description := description);
      Reply(cats[id := c], Success(c))
  }

  /** Under unique names, an edit fails exactly when the id is unknown or
      another category already has the new name, whichever answer the lookup
      gives. */
  lemma EditConflictsExactlyOnOtherOwner(cats: Categories, id: CategoryId, name: string, description: string,
                                         found: Option<CategoryId>)
    requires NamesUnique(cats)
    requires LookupByName(cats, name, found)
    ensures EditCategory(cats, id, name, description, found).result.Failure?
        <==> id !in cats || NameTakenByOther(cats, id, name)
  {
    LookupFindsOtherOwner(cats, id, name, found);
  }

  /** Creating a category keeps names unique. */
  lemma CreateKeepsNamesUnique(cats: Categories, name: string, description: string, newId: CategoryId)
    requires newId !in cats
    requires NamesUnique(cats)
    ensures NamesUnique(CreateCategory(cats, name, description, newId).store)
  {
    var r := CreateCategory(cats, name, description, newId);
    if r.result.Success? {
      forall j, k | j in r.store && k in r.store && r.store[j].name == r.store[k].name
        ensures j == k
      {
      }
    }
  }

  /** Editing a category keeps names unique. */
  lemma EditKeepsNamesUnique(cats: Categories, id: CategoryId, name: string, description: string,
                             found: Option<CategoryId>)
    requires NamesUnique(cats)
    requires LookupByName(cats, name, found)
    ensures NamesUnique(EditCategory(cats, id, name, description, found).store)
  {
    var r := EditCategory(cats, id, name, description, found);
    if r.result.Success? {
      LookupFindsOtherOwner(cats, id, name, found);
      forall j, k | j in r.store && k in r.store && r.store[j].name == r.store[k].name
        ensures j == k
      {
      }
    }
  }

  /** Under unique names, a category may always be saved under its own current
      name: the lookup can only return the category itself. */
  lemma RenameToOwnNameAllowed(cats: Categories, id: CategoryId, description: string,
                               found: Option<CategoryId>)
    requires NamesUnique(cats)
    requires id in cats
    requires LookupByName(cats, cats[id].name, found)
    ensures EditCategory(cats, id, cats[id].name, description, found).result.Success?
  {
    LookupFindsOtherOwner(cats, id, cats[id].name, found);
  }
}

=== FILE: cross_section_as_written.dfy ===
/** What the cross-section move does as written, against the designed move:
    a concrete curriculum on which the literal version breaks the ordering
    invariant that the designed version keeps. */
module CrossSectionAsWritten {
  import opened Wrappers
  import opened Ranges
  import opened LectureStore
  import opened LectureRepository
  import opened OrderingFacts
  import opened LectureOrdering

  const SectionA: SectionId := 1
  const SectionB: SectionId := 2
  const SectionC: SectionId := 3

  function Lec(id: LectureId, s: SectionId, order: int): Lecture {
    Lecture(id, s, 1, order, "", "", 0, Pending)
  }

  /** Section A holds lectures 1 and 2, section B lecture 3, section C lecture 4. */
  const Sample: Store := [Lec(1, SectionA, 0), Lec(2, SectionA, 1), Lec(3, SectionB, 0), Lec(4, SectionC, 0)]

  lemma SampleOrders(s: SectionId)
    ensures Orders(Sample, s) ==
      if s == SectionA then [0, 1]
      else if s == SectionB || s == SectionC then [0]
      else []
  {
    OrdersOf4(Sample, s);
  }

  /** The sample satisfies every precondition of the designed move of lecture 1
      from position 0 of A to position 0 of B. */
  lemma SampleIsWellFormed()
    ensures UniqueIds(Sample) && Contiguous(Sample)
    ensures SitsAt(Sample, 1, SectionA, 0) && SectionSize(Sample, SectionB) == 1
  {
    forall s | true
      ensures SectionContiguous(Sample, s)
    {
      SampleOrders(s);
      if s == SectionA {
        assert Range(0, 2) == [0, 1];
      } else if s == SectionB || s == SectionC {
        assert Range(0, 1) == [0];
      }
    }
    SampleOrders(SectionB);
    assert Sample[0].id == 1;
  }

  lemma OrdersOf4(st: Store, s: SectionId)
    requires |st| == 4
    ensures Orders(st, s) ==
      (if st[0].sectionId == s then [st[0].order] else [])
      + (if st[1].sectionId == s then [st[1].order] else [])
      + (if st[2].sectionId == s then [st[2].order] else [])
      + (if st[3].sectionId == s then [st[3].order] else [])
  {
    assert [] + [st[0]] == [st[0]];
    OrdersOfAppend([], st[0], s);
    OrdersOfAppend([st[0]], st[1], s);
    assert [st[0]] + [st[1]] == [st[0], st[1]];
    OrdersOfAppend([st[0], st[1]], st[2], s);
    assert [st[0], st[1]] + [st[2]] == [st[0], st[1], st[2]];
    OrdersOfAppend([st[0], st[1], st[2]], st[3], s);
    assert [st[0], st[1], st[2]] + [st[3]] == st;
  }

  /** The sample after moving lecture 1 from position 0 of A to position 0 of
      B as written, when the range updates move every lecture by `o`. */
  function AfterAsWrittenMove(o: int): Store {
    [Lec(1, SectionB, o), Lec(2, SectionA, 1), Lec(3, SectionB, o), Lec(4, SectionC, o)]
  }

  /** Lecture 1 lands in B but keeps its position, and the range updates either
      shift every lecture (unknown key dropped) or none. */
  lemma SampleAfterAsWrittenMove(p: StrayKeyPolicy)
    ensures MoveAcrossSectionsAsWritten(Sample, 1, SectionA, SectionB, 0, 0, p).store
         == AfterAsWrittenMove(if p == DropUnknownKey then 1 else 0)
  {
    assert Find(Sample, 1) == Some(0);
  }

  lemma AfterAsWrittenMoveOrders(o: int)
    ensures Orders(AfterAsWrittenMove(o), SectionA) == [1]
    ensures Orders(AfterAsWrittenMove(o), SectionB) == [o, o]
    ensures Orders(AfterAsWrittenMove(o), SectionC) == [o]
  {
    var r := AfterAsWrittenMove(o);
    OrdersOf4(r, SectionA);
    OrdersOf4(r, SectionB);
    OrdersOf4(r, SectionC);
  }

  /** A section holding one lecture at position 1 has a gap at 0. */
  lemma SingleAtOneIsGap(st: Store, s: SectionId)
    requires Orders(st, s) == [1]
    ensures !SectionContiguous(st, s)
  {
    assert Range(0, 1) == [0];
    assert 0 !in multiset([1]);
  }

  /** Two lectures at one position are never contiguous. */
  lemma TwinIsNotContiguous(st: Store, s: SectionId, o: int)
    requires Orders(st, s) == [o, o]
    ensures !SectionContiguous(st, s)
  {
    assert Range(0, 2) == [0, 1];
    assert multiset([o, o])[o] == 2;
  }

  /** The range filters keyed on `draggedSectionId` and `targetSectionId`,
      fields no lecture has: whichever way the unknown key is treated, moving
      lecture 1 from A to the head of B leaves A with a gap (its remaining
      lecture stays at position 1) and gives B two lectures at one position. */
  lemma AsWrittenBreaksOrdering(p: StrayKeyPolicy)
    ensures var r := MoveAcrossSectionsAsWritten(Sample, 1, SectionA, SectionB, 0, 0, p).store;
      && Orders(r, SectionA) == [1]
      && !SectionContiguous(r, SectionA)
      && !SectionContiguous(r, SectionB)
  {
    var o := if p == DropUnknownKey then 1 else 0;
    SampleAfterAsWrittenMove(p);
    AfterAsWrittenMoveOrders(o);
    SingleAtOneIsGap(AfterAsWrittenMove(o), SectionA);
    TwinIsNotContiguous(AfterAsWrittenMove(o), SectionB, o);
  }

  /** The designed move keeps every section of the sample contiguous on the
      same input. */
  lemma DesignedMoveKeepsSampleOrdered()
    ensures Contiguous(MoveAcrossSections(Sample, 1, SectionA, SectionB, 0, 0).store)
  {
    SampleIsWellFormed();
    MoveAcrossSectionsKeepsOrdering(Sample, 1, SectionA, SectionB, 0, 0);
  }

  /** With the unknown key dropped from the filters, the range updates reach
      every section: section C, untouched by the move, loses its position 0. */
  lemma AsWrittenShiftsUnrelatedSection()
    ensures var r := MoveAcrossSectionsAsWritten(Sample, 1, SectionA, SectionB, 0, 0, DropUnknownKey).store;
      Orders(r, SectionC) == [1] && !SectionContiguous(r, SectionC)
  {
    SampleAfterAsWrittenMove(DropUnknownKey);
    AfterAsWrittenMoveOrders(1);
    SingleAtOneIsGap(AfterAsWrittenMove(1), SectionC);
  }

  /** The final write sets the section but not the position: when the unknown key is
      sent to the database, the moved lecture keeps the position it had in its
      old section, whatever the target position. */
  lemma AsWrittenKeepsOldPosition(st: Store, lid: LectureId, source: SectionId, dest: SectionId,
                                  dragged: int, target: int)
    requires Find(st, lid).Some?
    ensures var k := Find(st, lid).value;
      && MoveAcrossSectionsAsWritten(st, lid, source, dest, dragged, target, SendUnknownKey).store[k]
         == st[k].(sectionId := dest)
      && MoveAcrossSections(st, lid, source, dest, dragged, target).store[k]
         == st[k].(sectionId := dest, order := target)
  {
  }

  /** Dragging lecture 2 (position 1 of A) to the head of B as written: it
      lands in B one past its old position, or at its old position, and every
      other lecture keeps its section. */
  lemma SampleAfterAsWrittenMoveOfTwo(p: StrayKeyPolicy)
    ensures var o := if p == DropUnknownKey then 1 else 0;
      MoveAcrossSectionsAsWritten(Sample, 2, SectionA, SectionB, 1, 0, p).store
        == [Lec(1, SectionA, o), Lec(2, SectionB, 1 + o), Lec(3, SectionB, o), Lec(4, SectionC, o)]
  {
    assert Find(Sample, 2) == Some(1);
  }

  /** Dragging lecture 2 (position 1 of A) to the head of B leaves it off the
      head of B under either treatment of the unknown key. */
  lemma AsWrittenMissesTarget(p: StrayKeyPolicy)
    ensures !SitsAt(MoveAcrossSectionsAsWritten(Sample, 2, SectionA, SectionB, 1, 0, p).store, 2, SectionB, 0)
  {
    var o := if p == DropUnknownKey then 1 else 0;
    SampleAfterAsWrittenMoveOfTwo(p);
    TwoIsNotAtHeadOfB([Lec(1, SectionA, o), Lec(2, SectionB, 1 + o), Lec(3, SectionB, o), Lec(4, SectionC, o)], o);
  }

  lemma TwoIsNotAtHeadOfB(st: Store, o: nat)
    requires st == [Lec(1, SectionA, o), Lec(2, SectionB, 1 + o), Lec(3, SectionB, o), Lec(4, SectionC, o)]
    ensures !SitsAt(st, 2, SectionB, 0)
  {
  }

  /** The designed move puts lecture 2 at the head of B. */
  lemma DesignedMoveHitsTarget()
    ensures SitsAt(MoveAcrossSections(Sample, 2, SectionA, SectionB, 1, 0).store, 2, SectionB, 0)
  {
    SampleIsWellFormed();
    assert SitsAt(Sample, 2, SectionA, 1) by {
      assert Sample[1].id == 2;
    }
    MoveAcrossSectionsKeepsOrdering(Sample, 2, SectionA, SectionB, 1, 0);
  }
}

=== FILE: lecture_listing.dfy ===
/** `getLecturesWithCourseId`: a course's lectures sorted by ascending
    position, and what a reader of that listing sees of a contiguous section. */
module LectureListing {
  import opened Ranges
  import opened LectureStore
  import opened OrderingFacts

  predicate SortedByOrder(xs: seq<Lecture>) {
    forall i, j :: 0 <= i < j < |xs| ==> xs[i].order <= xs[j].order
  }

  /** The lectures of course `c`, in store order: every lecture of the course,
      as often as it occurs, and no other. */
  function CourseLectures(st: Store, c: CourseId): (r: Store)
    ensures forall l :: multiset(r)[l] == if l.courseId == c then multiset(st)[l] else 0
  {
    if st == [] then []
    else
      var pre := st[..|st| - 1];
      var last := st[|st| - 1];
      assert st == pre + [last];
      CourseLectures(pre, c) + (if last.courseId == c then [last] else [])
  }

  lemma ConsSorted(x: Lecture, rest: seq<Lecture>)
    requires SortedByOrder(rest)
    requires forall i :: 0 <= i < |rest| ==> x.order <= rest[i].order
    ensures SortedByOrder([x] + rest)
  {
    forall i, j | 0 <= i < j < |[x] + rest|
      ensures ([x] + rest)[i].order <= ([x] + rest)[j].order
    {
      if i > 0 {
        assert ([x] + rest)[i] == rest[i - 1];
      }
      assert ([x] + rest)[j] == rest[j - 1];
    }
  }

  lemma SortedTail(xs: seq<Lecture>)
    requires SortedByOrder(xs) && xs != []
    ensures SortedByOrder(xs[1..])
  {
    var tail := xs[1..];
    forall i, j | 0 <= i < j < |tail|
      ensures tail[i].order <= tail[j].order
    {
      assert tail[i] == xs[i + 1] && tail[j] == xs[j + 1];
    }
  }

  /** Every lecture of a sorted sequence, and `l` if it is no earlier than the
      head, is no earlier than the head. */
  lemma HeadBelowInsertion(l: Lecture, xs: seq<Lecture>, rest: seq<Lecture>)
    requires SortedByOrder(xs) && xs != [] && xs[0].order <= l.order
    requires multiset(rest) == multiset(xs[1..]) + multiset{l}
    ensures forall i :: 0 <= i < |rest| ==> xs[0].order <= rest[i].order
  {
    var tail := xs[1..];
    forall i | 0 <= i < |rest|
      ensures xs[0].order <= rest[i].order
    {
      assert rest[i] in multiset(rest);
      if rest[i] != l {
        assert rest[i] in multiset(tail);
        var j :| 0 <= j < |tail| && tail[j] == rest[i];
        assert tail[j] == xs[j + 1];
      }
    }
  }

  /** A lecture earlier than the head of a sorted sequence is earlier than all of it. */
  lemma BelowHead(l: Lecture, xs: seq<Lecture>)
    requires SortedByOrder(xs) && xs != [] && l.order < xs[0].order
    ensures forall i :: 0 <= i < |xs| ==> l.order <= xs[i].order
  {
    forall i | 0 <= i < |xs|
      ensures l.order <= xs[i].order
    {
      assert i == 0 || xs[0].order <= xs[i].order;
    }
  }

  /** Inserts `l` into a sorted sequence, before the first lecture with a greater position. */
  function InsertByOrder(l: Lecture, xs: seq<Lecture>): (r: seq<Lecture>)
    requires SortedByOrder(xs)
    ensures SortedByOrder(r)
    ensures multiset(r) == multiset(xs) + multiset{l}
  {
    if xs == [] then [l]
    else if l.order < xs[0].order then
      BelowHead(l, xs);
      ConsSorted(l, xs);
      [l] + xs
    else
      SortedTail(xs);
      var rest := InsertByOrder(l, xs[1..]);
      HeadBelowInsertion(l, xs, rest);
      ConsSorted(xs[0], rest);
      assert xs == [xs[0]] + xs[1..];
      [xs[0]] + rest
  }

  function SortByOrder(xs: seq<Lecture>): (r: seq<Lecture>)
    ensures SortedByOrder(r)
    ensures multiset(r) == multiset(xs)
  {
    if xs == [] then []
    else
      assert xs == xs[..|xs| - 1] + [xs[|xs| - 1]];
      InsertByOrder(xs[|xs| - 1], SortByOrder(xs[..|xs| - 1]))
  }

  /** `getLecturesWithCourseId`: the course's lectures, by ascending `order`. */
  function GetLecturesWithCourseId(st: Store, c: CourseId): (r: seq<Lecture>)
    ensures SortedByOrder(r)
    ensures forall l :: multiset(r)[l] == if l.courseId == c then multiset(st)[l] else 0
  {
    SortByOrder(CourseLectures(st, c))
  }

  // ---------------------------------------------------------------------------
  // Read consistency
  // ---------------------------------------------------------------------------

  lemma {:induction false} OrdersConcat(a: Store, b: Store, s: SectionId)
    ensures Orders(a + b, s) == Orders(a, s) + Orders(b, s)
    decreases |b|
  {
    if b == [] {
      assert a + b == a;
    } else {
      var pre := b[..|b| - 1];
      var last := b[|b| - 1];
      var tail := if last.sectionId == s then [last.order] else [];
      assert Orders(a + pre, s) == Orders(a, s) + Orders(pre, s) by {
        OrdersConcat(a, pre, s);
      }
      assert Orders(a + b, s) == Orders(a + pre, s) + tail by {
        assert a + b == (a + pre) + [last];
        OrdersOfAppend(a + pre, last, s);
      }
      assert Orders(b, s) == Orders(pre, s) + tail by {
        assert b == pre + [last];
        OrdersOfAppend(pre, last, s);
      }
    }
  }

  /** The positions of a section with the lecture at `j` taken out. */
  lemma OrdersAround(b: Store, j: int, s: SectionId)
    requires 0 <= j < |b|
    ensures Orders(b, s) == Orders(b[..j], s) + Orders([b[j]], s) + Orders(b[j + 1..], s)
  {
    var pre, post := b[..j], b[j + 1..];
    assert b == (pre + [b[j]]) + post;
    OrdersConcat(pre + [b[j]], post, s);
    OrdersConcat(pre, [b[j]], s);
  }

  lemma OrdersOfOne(l: Lecture, s: SectionId)
    ensures Orders([l], s) == if l.sectionId == s then [l.order] else []
  {
    assert [] + [l] == [l];
    OrdersOfAppend([], l, s);
  }

  lemma MultisetMiddle(p: seq<int>, x: seq<int>, q: seq<int>)
    ensures multiset(p + x + q) == multiset(p + q) + multiset(x)
  {
  }

  lemma OrdersRemove(b: Store, j: int, s: SectionId)
    requires 0 <= j < |b|
    ensures multiset(Orders(b, s))
         == multiset(Orders(b[..j] + b[j + 1..], s))
          + (if b[j].sectionId == s then multiset{b[j].order} else multiset{})
  {
    var pre, post := b[..j], b[j + 1..];
    OrdersAround(b, j, s);
    OrdersOfOne(b[j], s);
    OrdersConcat(pre, post, s);
    MultisetMiddle(Orders(pre, s), Orders([b[j]], s), Orders(post, s));
  }

  /** Section positions depend only on which lectures there are, not on their order. */
  lemma {:induction false} OrdersPermutation(a: Store, b: Store, s: SectionId)
    requires multiset(a) == multiset(b)
    ensures multiset(Orders(a, s)) == multiset(Orders(b, s))
    decreases |a|
  {
    if a == [] {
      assert b == [] by {
        assert |multiset(b)| == 0;
      }
    } else {
      var n := |a| - 1;
      assert a[n] in multiset(b) by {
        assert a[n] in multiset(a);
      }
      var j :| 0 <= j < |b| && b[j] == a[n];
      var rest := b[..j] + b[j + 1..];
      assert a[..n] + a[n + 1..] == a[..n];
      assert multiset(a[..n]) == multiset(rest) by {
        SeqRemove(a, n);
        SeqRemove(b, j);
        CancelOne(multiset(a[..n]), multiset(rest), a[n]);
      }
      OrdersPermutation(a[..n], rest, s);
      OrdersRemove(a, n, s);
      OrdersRemove(b, j, s);
    }
  }

  lemma AscendingSnoc(a: seq<int>, v: int)
    requires Ascending(a)
    requires forall i :: 0 <= i < |a| ==> a[i] <= v
    ensures Ascending(a + [v])
  {
    forall i, j | 0 <= i < j < |a + [v]|
      ensures (a + [v])[i] <= (a + [v])[j]
    {
    }
  }

  /** Section positions read off a listing sorted by position ascend. */
  lemma {:induction false} SortedOrdersAscend(xs: seq<Lecture>, s: SectionId)
    requires SortedByOrder(xs)
    ensures Ascending(Orders(xs, s))
    ensures xs != [] ==> forall i :: 0 <= i < |Orders(xs, s)| ==> Orders(xs, s)[i] <= xs[|xs| - 1].order
  {
    if xs != [] {
      var pre := xs[..|xs| - 1];
      var last := xs[|xs| - 1];
      assert SortedByOrder(pre);
      SortedOrdersAscend(pre, s);
      var a := Orders(pre, s);
      assert forall i :: 0 <= i < |a| ==> a[i] <= last.order by {
        if pre != [] {
          assert pre[|pre| - 1].order <= last.order;
        }
      }
      if last.sectionId == s {
        AscendingSnoc(a, last.order);
      }
    }
  }

  /** The lectures of course `c` have the positions of the whole store in every
      section whose lectures all belong to `c`. */
  lemma {:induction false} CourseKeepsSection(st: Store, c: CourseId, s: SectionId)
    requires forall i :: 0 <= i < |st| && st[i].sectionId == s ==> st[i].courseId == c
    ensures Orders(CourseLectures(st, c), s) == Orders(st, s)
  {
    if st != [] {
      var pre := st[..|st| - 1];
      var last := st[|st| - 1];
      var course := CourseLectures(pre, c);
      assert Orders(course, s) == Orders(pre, s) by {
        CourseKeepsSection(pre, c, s);
      }
      if last.courseId == c {
        assert CourseLectures(st, c) == course + [last];
        OrdersOfAppend(course, last, s);
      } else {
        assert CourseLectures(st, c) == course;
        assert last.sectionId != s;
      }
    }
  }

  /** Reading a contiguous section off the course listing yields exactly
      `0, 1, ..., N-1`, in that order. */
  lemma ListingReadsSectionInOrder(st: Store, c: CourseId, s: SectionId)
    requires SectionContiguous(st, s)
    requires forall i :: 0 <= i < |st| && st[i].sectionId == s ==> st[i].courseId == c
    ensures Orders(GetLecturesWithCourseId(st, c), s) == Range(0, SectionSize(st, s))
  {
    var listing := GetLecturesWithCourseId(st, c);
    var course := CourseLectures(st, c);
    assert multiset(listing) == multiset(course);
    OrdersPermutation(listing, course, s);
    CourseKeepsSection(st, c, s);
    SortedOrdersAscend(listing, s);
    SortedRangeIsRange(Orders(listing, s), 0, SectionSize(st, s));
  }
}

=== FILE: lecture_ordering.dfy ===
/** The ordering invariant across the repository's writes: every section's
    positions stay exactly `0 .. N-1` under the same-section move, the designed
    cross-section move, appending, and the point edits. */
module LectureOrdering {
  import opened Wrappers
  import opened Ranges
  import opened LectureStore
  import opened OrderingFacts
  import opened LectureRepository

  predicate SameIds(a: Store, b: Store) {
    |a| == |b| && forall i :: 0 <= i < |a| ==> a[i].id == b[i].id
  }

  lemma SameIdsUnique(st: Store, r: Store)
    requires UniqueIds(st) && SameIds(st, r)
    ensures UniqueIds(r)
  {
    forall i, j | 0 <= i < j < |r|
      ensures r[i].id != r[j].id
    {
      assert st[i].id != st[j].id;
    }
  }

  lemma FindUnique(st: Store, id: LectureId, k: int)
    requires UniqueIds(st)
    requires 0 <= k < |st| && st[k].id == id
    ensures Find(st, id) == Some(k)
  {
  }

  /** `Find` looks only at identifiers. */
  lemma {:induction false} FindSameIds(a: Store, b: Store, id: LectureId)
    requires SameIds(a, b)
    ensures Find(a, id) == Find(b, id)
    decreases |a|
  {
    if a != [] {
      assert SameIds(a[1..], b[1..]);
      FindSameIds(a[1..], b[1..], id);
    }
  }

  /** A write that keeps identifiers, in a store with unique identifiers: the
      positions of section `s` afterwards are the other lectures' old positions
      mapped by `f`, plus the written lecture's new position if it is in `s`. */
  lemma SectionAfterWrite(st: Store, r: Store, s: SectionId, k: int, f: int -> int)
    requires UniqueIds(st) && SameIds(st, r)
    requires 0 <= k < |st|
    requires forall i :: 0 <= i < |st| && i != k ==>
      && (r[i].sectionId == s <==> st[i].sectionId == s)
      && (st[i].sectionId == s ==> r[i].order == f(st[i].order))
    ensures UniqueIds(r)
    ensures multiset(Orders(r, s))
         == multiset(MapSeq(f, OrdersExcept(st, s, st[k].id)))
          + (if r[k].sectionId == s then multiset{r[k].order} else multiset{})
  {
    OrdersExceptMap(st, r, s, st[k].id, f);
    OrdersSplit(r, s, k);
  }

  /** A section that neither holds the written lecture before nor after a write
      that leaves its other lectures alone keeps its positions. */
  lemma UntouchedSection(st: Store, r: Store, s: SectionId, k: int)
    requires UniqueIds(st) && SameIds(st, r)
    requires 0 <= k < |st| && st[k].sectionId != s && r[k].sectionId != s
    requires forall i :: 0 <= i < |st| && i != k ==>
      && (r[i].sectionId == s <==> st[i].sectionId == s)
      && (st[i].sectionId == s ==> r[i].order == st[i].order)
    ensures SectionSize(r, s) == SectionSize(st, s)
    ensures SectionContiguous(r, s) <==> SectionContiguous(st, s)
  {
    var id := (x: int) => x;
    SectionAfterWrite(st, r, s, k, id);
    MapIdentity(id, OrdersExcept(st, s, st[k].id));
    OrdersSplit(st, s, k);
    SameBagSameContiguity(st, r, s);
  }

  // ---------------------------------------------------------------------------
  // Same-section move
  // ---------------------------------------------------------------------------

  lemma MovedWithinBag(st: Store, r: Store, s: SectionId, k: int, d: int, t: int)
    requires UniqueIds(st) && SameIds(st, r)
    requires 0 <= k < |st| && st[k].sectionId == s && st[k].order == d
    requires r[k].sectionId == s && r[k].order == t
    requires forall i :: 0 <= i < |st| && i != k ==>
      r[i] == st[i].(order := SameSectionShift(st[i], s, d, t))
    ensures multiset(Orders(r, s))
         == multiset(MapSeq(WithinShift(d, t), OrdersExcept(st, s, st[k].id))) + multiset{t}
  {
    var f := WithinShift(d, t);
    forall i | 0 <= i < |st| && i != k
      ensures r[i].sectionId == st[i].sectionId
      ensures st[i].sectionId == s ==> r[i].order == f(st[i].order)
    {
    }
    SectionAfterWrite(st, r, s, k, f);
  }

  lemma WithinBag(xs: seq<int>, d: int, t: int, n: int)
    requires 0 <= d < n && 0 <= t < n
    requires multiset(xs) == multiset(Hole(d, n))
    ensures multiset(MapSeq(WithinShift(d, t), xs)) + multiset{t} == multiset(Range(0, n))
  {
    MapPermutation(WithinShift(d, t), xs, Hole(d, n));
    WithinImage(d, t, n);
    HoleFill(t, n);
  }

  lemma MovedSectionWithin(st: Store, r: Store, s: SectionId, k: int, d: int, t: int)
    requires UniqueIds(st) && SameIds(st, r)
    requires 0 <= k < |st| && st[k].sectionId == s && st[k].order == d
    requires r[k].sectionId == s && r[k].order == t
    requires SectionContiguous(st, s)
    requires 0 <= t < SectionSize(st, s)
    requires forall i :: 0 <= i < |st| && i != k ==>
      r[i] == st[i].(order := SameSectionShift(st[i], s, d, t))
    ensures SectionSize(r, s) == SectionSize(st, s)
    ensures SectionContiguous(r, s)
  {
    var n := SectionSize(st, s);
    ContiguousWithout(st, s, k);
    MovedWithinBag(st, r, s, k, d, t);
    WithinBag(OrdersExcept(st, s, st[k].id), d, t, n);
    ContiguousFromBag(r, s, n);
  }

  /** The same-section move keeps every section contiguous, provided the
      dragged lecture sits at `dragged` in `s` and `target` is a position of `s`. */
  lemma MoveWithinSectionKeepsOrdering(st: Store, s: SectionId, lid: LectureId, dragged: int, target: int)
    requires UniqueIds(st)
    requires Contiguous(st)
    requires SitsAt(st, lid, s, dragged)
    requires 0 <= target < SectionSize(st, s)
    ensures Contiguous(MoveWithinSection(st, s, lid, dragged, target).store)
  {
    var k :| 0 <= k < |st| && st[k].id == lid && st[k].sectionId == s && st[k].order == dragged;
    WithinWrite(st, s, lid, dragged, target, k);
    var r := MoveWithinSection(st, s, lid, dragged, target).store;
    forall s' | true
      ensures SectionContiguous(r, s')
    {
      if s' == s {
        MovedSectionWithin(st, r, s, k, dragged, target);
      } else {
        UntouchedSection(st, r, s', k);
      }
    }
  }

  /** Under the same conditions, the same-section move keeps identifiers
      unique and every section's size, and lands the dragged lecture at the
      target position of its section. */
  lemma MoveWithinSectionLandsAtTarget(st: Store, s: SectionId, lid: LectureId, dragged: int, target: int)
    requires UniqueIds(st)
    requires Contiguous(st)
    requires SitsAt(st, lid, s, dragged)
    requires 0 <= target < SectionSize(st, s)
    ensures var r := MoveWithinSection(st, s, lid, dragged, target).store;
      && UniqueIds(r)
      && SitsAt(r, lid, s, target)
      && forall s' :: SectionSize(r, s') == SectionSize(st, s')
  {
    var k :| 0 <= k < |st| && st[k].id == lid && st[k].sectionId == s && st[k].order == dragged;
    WithinWrite(st, s, lid, dragged, target, k);
    var r := MoveWithinSection(st, s, lid, dragged, target).store;
    forall s' | true
      ensures SectionSize(r, s') == SectionSize(st, s')
    {
      if s' == s {
        MovedSectionWithin(st, r, s, k, dragged, target);
      } else {
        UntouchedSection(st, r, s', k);
      }
    }
    SameIdsUnique(st, r);
    assert r[k].id == lid && r[k].sectionId == s && r[k].order == target;
  }

  /** The same-section move's write, lecture by lecture, once the dragged
      lecture is known to sit at index `k`. */
  lemma WithinWrite(st: Store, s: SectionId, lid: LectureId, dragged: int, target: int, k: int)
    requires UniqueIds(st)
    requires 0 <= k < |st| && st[k].id == lid
    ensures var r := MoveWithinSection(st, s, lid, dragged, target).store;
      && SameIds(st, r)
      && r[k] == st[k].(order := target)
      && forall i :: 0 <= i < |st| && i != k ==>
           r[i] == st[i].(order := SameSectionShift(st[i], s, dragged, target))
  {
    FindUnique(st, lid, k);
  }

  /** Dropping a lecture on its own position changes nothing. */
  lemma MoveToOwnPositionIsNoOp(st: Store, s: SectionId, lid: LectureId, dragged: int)
    requires UniqueIds(st)
    requires SitsAt(st, lid, s, dragged)
    ensures MoveWithinSection(st, s, lid, dragged, dragged).store == st
  {
    var k :| 0 <= k < |st| && st[k].id == lid && st[k].sectionId == s && st[k].order == dragged;
    FindUnique(st, lid, k);
  }

  // ---------------------------------------------------------------------------
  // Cross-section move, as designed
  // ---------------------------------------------------------------------------

  lemma SourceBag(st: Store, r: Store, source: SectionId, dest: SectionId, k: int, d: int, t: int)
    requires UniqueIds(st) && SameIds(st, r)
    requires source != dest
    requires 0 <= k < |st| && st[k].sectionId == source && st[k].order == d
    requires r[k].sectionId == dest
    requires forall i :: 0 <= i < |st| && i != k ==>
      r[i] == st[i].(order := CrossSectionShift(st[i], source, dest, d, t))
    ensures multiset(Orders(r, source)) == multiset(MapSeq(CloseShift(d), OrdersExcept(st, source, st[k].id)))
  {
    var f := CloseShift(d);
    forall i | 0 <= i < |st| && i != k
      ensures r[i].sectionId == st[i].sectionId
      ensures st[i].sectionId == source ==> r[i].order == f(st[i].order)
    {
    }
    SectionAfterWrite(st, r, source, k, f);
  }

  lemma CloseBag(xs: seq<int>, d: int, n: int)
    requires 0 <= d < n
    requires multiset(xs) == multiset(Hole(d, n))
    ensures multiset(MapSeq(CloseShift(d), xs)) == multiset(Range(0, n - 1))
  {
    MapPermutation(CloseShift(d), xs, Hole(d, n));
    CloseGapImage(d, n);
  }

  lemma SourceSectionAcross(st: Store, r: Store, source: SectionId, dest: SectionId, k: int, d: int, t: int)
    requires UniqueIds(st) && SameIds(st, r)
    requires source != dest
    requires 0 <= k < |st| && st[k].sectionId == source && st[k].order == d
    requires r[k].sectionId == dest
    requires SectionContiguous(st, source)
    requires forall i :: 0 <= i < |st| && i != k ==>
      r[i] == st[i].(order := CrossSectionShift(st[i], source, dest, d, t))
    ensures SectionSize(r, source) == SectionSize(st, source) - 1
    ensures SectionContiguous(r, source)
  {
    var n := SectionSize(st, source);
    ContiguousWithout(st, source, k);
    SourceBag(st, r, source, dest, k, d, t);
    CloseBag(OrdersExcept(st, source, st[k].id), d, n);
    ContiguousFromBag(r, source, n - 1);
  }

  lemma TargetBag(st: Store, r: Store, source: SectionId, dest: SectionId, k: int, d: int, t: int)
    requires UniqueIds(st) && SameIds(st, r)
    requires source != dest
    requires 0 <= k < |st| && st[k].sectionId == source
    requires r[k].sectionId == dest && r[k].order == t
    requires forall i :: 0 <= i < |st| && i != k ==>
      r[i] == st[i].(order := CrossSectionShift(st[i], source, dest, d, t))
    ensures multiset(Orders(r, dest))
         == multiset(MapSeq(OpenShift(t), OrdersExcept(st, dest, st[k].id))) + multiset{t}
  {
    var f := OpenShift(t);
    forall i | 0 <= i < |st| && i != k
      ensures r[i].sectionId == dest <==> st[i].sectionId == dest
      ensures st[i].sectionId == dest ==> r[i].order == f(st[i].order)
    {
    }
    SectionAfterWrite(st, r, dest, k, f);
  }

  lemma OpenBag(xs: seq<int>, t: int, n: int)
    requires 0 <= t <= n
    requires multiset(xs) == multiset(Range(0, n))
    ensures multiset(MapSeq(OpenShift(t), xs)) + multiset{t} == multiset(Range(0, n + 1))
  {
    MapPermutation(OpenShift(t), xs, Range(0, n));
    OpenGapImage(t, n);
    HoleFill(t, n + 1);
  }

  lemma TargetSectionAcross(st: Store, r: Store, source: SectionId, dest: SectionId, k: int, d: int, t: int)
    requires UniqueIds(st) && SameIds(st, r)
    requires source != dest
    requires 0 <= k < |st| && st[k].sectionId == source
    requires r[k].sectionId == dest && r[k].order == t
    requires SectionContiguous(st, dest)
    requires 0 <= t <= SectionSize(st, dest)
    requires forall i :: 0 <= i < |st| && i != k ==>
      r[i] == st[i].(order := CrossSectionShift(st[i], source, dest, d, t))
    ensures SectionSize(r, dest) == SectionSize(st, dest) + 1
    ensures SectionContiguous(r, dest)
  {
    var n := SectionSize(st, dest);
    OrdersSplit(st, dest, k);
    TargetBag(st, r, source, dest, k, d, t);
    OpenBag(OrdersExcept(st, dest, st[k].id), t, n);
    ContiguousFromBag(r, dest, n + 1);
  }

  /** The designed cross-section move keeps every section contiguous: the
      source loses one lecture, the target gains it at `target`, every other
      section is untouched. `target` may be the target section's size (append
      at the tail). */
  lemma MoveAcrossSectionsKeepsOrdering(st: Store, lid: LectureId, source: SectionId, dest: SectionId,
                                        dragged: int, target: int)
    requires UniqueIds(st)
    requires Contiguous(st)
    requires source != dest
    requires SitsAt(st, lid, source, dragged)
    requires 0 <= target <= SectionSize(st, dest)
    ensures var r := MoveAcrossSections(st, lid, source, dest, dragged, target).store;
      && UniqueIds(r)
      && Contiguous(r)
      && SitsAt(r, lid, dest, target)
      && SectionSize(r, source) == SectionSize(st, source) - 1
      && SectionSize(r, dest) == SectionSize(st, dest) + 1
      && forall s' :: s' != source && s' != dest ==> SectionSize(r, s') == SectionSize(st, s')
  {
    var k :| 0 <= k < |st| && st[k].id == lid && st[k].sectionId == source && st[k].order == dragged;
    AcrossWrite(st, lid, source, dest, dragged, target, k);
    var r := MoveAcrossSections(st, lid, source, dest, dragged, target).store;
    forall s' | true
      ensures SectionContiguous(r, s')
      ensures s' != source && s' != dest ==> SectionSize(r, s') == SectionSize(st, s')
    {
      if s' == source {
        SourceSectionAcross(st, r, source, dest, k, dragged, target);
      } else if s' == dest {
        TargetSectionAcross(st, r, source, dest, k, dragged, target);
      } else {
        UntouchedSection(st, r, s', k);
      }
    }
    SourceSectionAcross(st, r, source, dest, k, dragged, target);
    TargetSectionAcross(st, r, source, dest, k, dragged, target);
    SameIdsUnique(st, r);
    assert r[k].id == lid && r[k].sectionId == dest && r[k].order == target;
  }

  /** The designed cross-section move's write, lecture by lecture, once the
      dragged lecture is known to sit at index `k`. */
  lemma AcrossWrite(st: Store, lid: LectureId, source: SectionId, dest: SectionId,
                    dragged: int, target: int, k: int)
    requires UniqueIds(st)
    requires 0 <= k < |st| && st[k].id == lid
    ensures var r := MoveAcrossSections(st, lid, source, dest, dragged, target).store;
      && SameIds(st, r)
      && r[k] == st[k].(sectionId := dest, order := target)
      && forall i :: 0 <= i < |st| && i != k ==>
           r[i] == st[i].(order := CrossSectionShift(st[i], source, dest, dragged, target))
  {
    FindUnique(st, lid, k);
  }

  // ---------------------------------------------------------------------------
  // Appending, and the point edits
  // ---------------------------------------------------------------------------

  /** A lecture appended at its section's tail keeps every section contiguous
      and grows its section by one. */
  lemma AppendLectureKeepsOrdering(st: Store, id: LectureId, s: SectionId, course: CourseId, data: LectureData)
    requires Contiguous(st)
    ensures var r := AppendLecture(st, id, s, course, data);
      r.Success? ==>
        && Contiguous(r.value.store)
        && SectionSize(r.value.store, s) == SectionSize(st, s) + 1
        && SitsAt(r.value.store, id, s, SectionSize(st, s))
  {
    var r := AppendLecture(st, id, s, course, data);
    if r.Success? {
      var l := r.value.lecture;
      var n := SectionSize(st, s);
      assert r.value.store[|st|] == l;
      forall s' | true
        ensures SectionContiguous(r.value.store, s')
      {
        OrdersOfAppend(st, l, s');
        assert SectionContiguous(st, s');
        if s' == s {
          assert Range(0, n + 1) == Range(0, n) + [n] by {
            RangeSplit(0, n, n + 1);
            assert Range(n, n + 1) == [n];
          }
          assert Orders(r.value.store, s) == Orders(st, s) + [n];
          assert multiset(Orders(r.value.store, s)) == multiset(Range(0, n + 1));
          ContiguousFromBag(r.value.store, s, n + 1);
        }
      }
      OrdersOfAppend(st, l, s);
    }
  }

  /** Two stores that agree on every lecture's section and position have the
      same section positions. */
  lemma {:induction false} OrdersIgnoreOtherFields(a: Store, b: Store, s: SectionId)
    requires |a| == |b|
    requires forall i :: 0 <= i < |a| ==> a[i].sectionId == b[i].sectionId && a[i].order == b[i].order
    ensures Orders(a, s) == Orders(b, s)
  {
    if a != [] {
      OrdersIgnoreOtherFields(a[..|a| - 1], b[..|b| - 1], s);
    }
  }

  /** Marking a lecture processed leaves every section's positions as they were,
      and doing it twice is the same as doing it once. */
  lemma ProcessedKeyKeepsOrdering(st: Store, lid: LectureId, key: string)
    ensures forall s :: Orders(UpdateLectureWithProcessedKey(st, lid, key).store, s) == Orders(st, s)
    ensures var once := UpdateLectureWithProcessedKey(st, lid, key).store;
      UpdateLectureWithProcessedKey(once, lid, key).store == once
  {
    var once := UpdateLectureWithProcessedKey(st, lid, key).store;
    forall s | true
      ensures Orders(once, s) == Orders(st, s)
    {
      OrdersIgnoreOtherFields(once, st, s);
    }
    assert SameIds(st, once);
    FindSameIds(st, once, lid);
  }

  /** Editing a lecture's details leaves every section's positions as they were. */
  lemma EditLectureKeepsOrdering(st: Store, lid: LectureId, data: LectureData)
    ensures forall s :: Orders(EditLecture(st, lid, data).store, s) == Orders(st, s)
  {
    var r := EditLecture(st, lid, data).store;
    forall s | true
      ensures Orders(r, s) == Orders(st, s)
    {
      OrdersIgnoreOtherFields(r, st, s);
    }
  }
}

=== FILE: lecture_repository.dfy ===
/** The lecture repository: creation, counting, the two move operations, and
    the two point edits, each as a pure function from the store before the
    call to the store after it and the document the call returns. */
module LectureRepository {
  import opened Wrappers
  import opened LectureStore

  /** Every failing store call is rethrown as this one error (HTTP 500). */
  datatype DatabaseError = DatabaseError(message: string, status: int)

  const UnexpectedDatabaseError: DatabaseError :=
    DatabaseError("An unexpected database error occurred", 500)

  /** The caller-supplied fields of a new or edited lecture. */
  datatype LectureData = LectureData(title: string, videoUrl: string, duration: int)

  datatype Created = Created(store: Store, lecture: Lecture)

  // ---------------------------------------------------------------------------
  // create / countDocumentWithSectionId
  // ---------------------------------------------------------------------------

  /** `create`: inserts a new lecture document with the given position. The new
      document is `Pending` until its video has been processed. Inserting under
      an identifier already in use is a store failure, rethrown as the
      repository's database error. */
  function Create(st: Store, id: LectureId, section: SectionId, course: CourseId,
                  data: LectureData, order: int): (r: Result<Created, DatabaseError>)
    ensures r.Failure? <==> Find(st, id).Some?
    ensures r.Failure? ==> r.error == UnexpectedDatabaseError
    ensures r.Success? ==>
      && r.value.store == st + [r.value.lecture]
      && r.value.lecture.id == id
      && r.value.lecture.sectionId == section
      && r.value.lecture.courseId == course
      && r.value.lecture.order == order
      && r.value.lecture.title == data.title
      && r.value.lecture.videoUrl == data.videoUrl
      && r.value.lecture.duration == data.duration
      && r.value.lecture.status == Pending
    ensures r.Success? && UniqueIds(st) ==> UniqueIds(r.value.store)
  {
    if Find(st, id).Some? then
      Failure(UnexpectedDatabaseError)
    else
      var l := Lecture(id, section, course, order, data.title, data.videoUrl, data.duration, Pending);
      Success(Created(st + [l], l))
  }

  /** `countDocumentWithSectionId`: the number of lectures of a section. */
  function CountDocumentWithSectionId(st: Store, s: SectionId): (n: nat)
    ensures n == SectionSize(st, s)
    ensures n <= |st|
  {
    if st == [] then 0
    else
      CountDocumentWithSectionId(st[..|st| - 1], s)
        + (if st[|st| - 1].sectionId == s then 1 else 0)
  }

  /** Adding a lecture to a section: it is created at the section's tail,
      `order` = the current number of lectures in the section. */
  function AppendLecture(st: Store, id: LectureId, s: SectionId, course: CourseId,
                         data: LectureData): (r: Result<Created, DatabaseError>)
    ensures r.Success? ==> r.value.lecture.order == SectionSize(st, s)
    ensures r.Success? ==> r.value.lecture.sectionId == s
    ensures r.Failure? <==> Find(st, id).Some?
  {
    Create(st, id, s, course, data, CountDocumentWithSectionId(st, s))
  }

  // ---------------------------------------------------------------------------
  // updateOrderOfLectureInSameSection
  // ---------------------------------------------------------------------------

  /** Where the range update of a same-section move sends lecture `l`. */
  function SameSectionShift(l: Lecture, s: SectionId, dragged: int, target: int): int {
    if l.sectionId != s then l.order
    else if dragged > target && target <= l.order < dragged then l.order + 1
    else if dragged <= target && dragged < l.order <= target then l.order - 1
    else l.order
  }

  /** `updateOrderOfLectureInSameSection`: moving earlier opens `[target, dragged)`
      by one, moving later (or not at all) closes `(dragged, target]` by one, then
      the dragged lecture is written at `target`. The call returns the dragged
      lecture as it was before that last write. */
  function MoveWithinSection(st: Store, s: SectionId, lid: LectureId, dragged: int, target: int): (r: Written)
    ensures |r.store| == |st|
    ensures forall i :: 0 <= i < |st| && st[i].id != lid ==>
      r.store[i] == st[i].(order := SameSectionShift(st[i], s, dragged, target))
    ensures Find(st, lid).None? ==> r.lecture == None
    ensures Find(st, lid).Some? ==>
      var k := Find(st, lid).value;
      && r.store[k] == st[k].(order := target)
      && r.lecture == Some(st[k].(order := SameSectionShift(st[k], s, dragged, target)))
  {
    var shifted :=
      if dragged > target then
        UpdateMany(st, Filter(SectionIs(s), Inclusive(target), Exclusive(dragged)), 1)
      else
        UpdateMany(st, Filter(SectionIs(s), Exclusive(dragged), Inclusive(target)), -1);
    FindByIdAndUpdate(shifted, lid, EmptyPatch.(order := Some(target)), false)
  }

  // ---------------------------------------------------------------------------
  // updateOrderOfLectureInDifferentSection
  // ---------------------------------------------------------------------------

  /** Where the two range updates of the intended cross-section move send `l`:
      the source section closes the gap above `dragged`, then the target section
      opens a slot at `target`. */
  function CrossSectionShift(l: Lecture, source: SectionId, dest: SectionId, dragged: int, target: int): int {
    var o := if l.sectionId == source && l.order > dragged then l.order - 1 else l.order;
    if l.sectionId == dest && o >= target then o + 1 else o
  }

  /** The cross-section move as designed: compact the source section, open a
      slot in the target section, then write the lecture's new section and
      position. The call returns the lecture after the write. */
  function MoveAcrossSections(st: Store, lid: LectureId, source: SectionId, dest: SectionId,
                              dragged: int, target: int): (r: Written)
    ensures |r.store| == |st|
    ensures forall i :: 0 <= i < |st| && st[i].id != lid ==>
      r.store[i] == st[i].(order := CrossSectionShift(st[i], source, dest, dragged, target))
    ensures Find(st, lid).None? ==> r.lecture == None
    ensures Find(st, lid).Some? ==>
      var k := Find(st, lid).value;
      && r.store[k] == st[k].(sectionId := dest, order := target)
      && r.lecture == Some(r.store[k])
  {
    var compacted := UpdateMany(st, Filter(SectionIs(source), Exclusive(dragged), Unbounded), -1);
    var widened := UpdateMany(compacted, Filter(SectionIs(dest), Inclusive(target), Unbounded), 1);
    FindByIdAndUpdate(widened, lid, EmptyPatch.(sectionId := Some(dest), order := Some(target)), true)
  }

  /** How the stack treats a filter key that names a field lectures do not have.
      With the object-mapper's strict query mode the key is dropped before the
      query is sent, leaving only the `order` condition; without it the database
      receives the key, and a missing field never equals an identifier. */
  datatype StrayKeyPolicy = DropUnknownKey | SendUnknownKey

  function StrayKeyClause(p: StrayKeyPolicy): SectionClause {
    match p
    case DropUnknownKey => AnySection
    case SendUnknownKey => NoSection
  }

  /** Where the two range updates of the cross-section move, as written, send a
      lecture: both filters have lost their section condition. */
  function AsWrittenShift(l: Lecture, p: StrayKeyPolicy, dragged: int, target: int): int {
    match p
    case SendUnknownKey => l.order
    case DropUnknownKey =>
      var o := if l.order > dragged then l.order - 1 else l.order;
      if o >= target then o + 1 else o
  }

  /** `updateOrderOfLectureInDifferentSection` as written: the two range filters
      are keyed on `draggedSectionId` and `targetSectionId`, fields that lectures
      do not have, and the final write sets the section but not the position. */
  function MoveAcrossSectionsAsWritten(st: Store, lid: LectureId, source: SectionId, dest: SectionId,
                                       dragged: int, target: int, p: StrayKeyPolicy): (r: Written)
    ensures |r.store| == |st|
    ensures forall i :: 0 <= i < |st| && st[i].id != lid ==>
      r.store[i] == st[i].(order := AsWrittenShift(st[i], p, dragged, target))
    ensures Find(st, lid).None? ==> r.lecture == None
    ensures Find(st, lid).Some? ==>
      var k := Find(st, lid).value;
      && r.store[k] == st[k].(sectionId := dest, order := AsWrittenShift(st[k], p, dragged, target))
      && r.lecture == Some(r.store[k])
  {
    var compacted := UpdateMany(st, Filter(StrayKeyClause(p), Exclusive(dragged), Unbounded), -1);
    var widened := UpdateMany(compacted, Filter(StrayKeyClause(p), Inclusive(target), Unbounded), 1);
    assert forall i :: 0 <= i < |st| ==> widened[i] == st[i].(order := AsWrittenShift(st[i], p, dragged, target)) by {
      forall i | 0 <= i < |st|
        ensures widened[i] == st[i].(order := AsWrittenShift(st[i], p, dragged, target))
      {
        AsWrittenStep(st[i], p, dragged, target);
      }
    }
    FindByIdAndUpdate(widened, lid, EmptyPatch.(sectionId := Some(dest)), true)
  }

  /** The two range updates of the move as written, on one lecture. */
  lemma AsWrittenStep(l: Lecture, p: StrayKeyPolicy, dragged: int, target: int)
    ensures var c := if Matches(Filter(StrayKeyClause(p), Exclusive(dragged), Unbounded), l)
                     then l.(order := l.order - 1) else l;
            var w := if Matches(Filter(StrayKeyClause(p), Inclusive(target), Unbounded), c)
                     then c.(order := c.order + 1) else c;
            w == l.(order := AsWrittenShift(l, p, dragged, target))
  {
  }

  // ---------------------------------------------------------------------------
  // updateLectureWithProcessedKey / editLecture
  // ---------------------------------------------------------------------------

  /** `updateLectureWithProcessedKey`: points the lecture at its processed video
      and marks it processed; returns the updated lecture. */
  function UpdateLectureWithProcessedKey(st: Store, lid: LectureId, key: string): (r: Written)
    ensures Find(st, lid).None? ==> r == Written(st, None)
    ensures Find(st, lid).Some? ==>
      var k := Find(st, lid).value;
      && r.store == st[k := st[k].(videoUrl := key, status := Processed)]
      && r.lecture == Some(r.store[k])
  {
    FindByIdAndUpdate(st, lid, EmptyPatch.(videoUrl := Some(key), status := Some(Processed)), true)
  }

  /** `editLecture`: replaces title, video and duration; returns the updated lecture. */
  function EditLecture(st: Store, lid: LectureId, data: LectureData): (r: Written)
    ensures Find(st, lid).None? ==> r == Written(st, None)
    ensures Find(st, lid).Some? ==>
      var k := Find(st, lid).value;
      && r.store == st[k := st[k].(title := data.title, videoUrl := data.videoUrl, duration := data.duration)]
      && r.lecture == Some(r.store[k])
  {
    FindByIdAndUpdate(st, lid, EmptyPatch.(title := Some(data.title), videoUrl := Some(data.videoUrl),
                                           duration := Some(data.duration)), true)
  }
}

=== FILE: lecture_store.dfy ===
/** The lecture collection as an immutable sequence of records, the two write
    primitives the repository issues against it (`updateMany` with an `$inc`
    on `order`, and `findByIdAndUpdate`), and the per-section ordering
    invariant. */
module LectureStore {
  import opened Wrappers
  import opened Ranges

  type LectureId = nat
  type SectionId = nat
  type CourseId = nat

  datatype Status = Pending | Processed

  datatype Lecture = Lecture(
    id: LectureId,
    sectionId: SectionId,
    courseId: CourseId,
    order: int,
    title: string,
    videoUrl: string,
    duration: int,
    status: Status)

  /** The collection, in insertion order. */
  type Store = seq<Lecture>

  /** Document identifiers are unique, as the database's primary key guarantees. */
  predicate UniqueIds(st: Store) {
    forall i, j :: 0 <= i < j < |st| ==> st[i].id != st[j].id
  }

  // ---------------------------------------------------------------------------
  // Filters and range updates (`updateMany`)
  // ---------------------------------------------------------------------------

  /** One end of an `order` range condition: absent, `$gte`/`$lte`, or `$gt`/`$lt`. */
  datatype Bound = Unbounded | Inclusive(v: int) | Exclusive(v: int)

  /** The section part of a filter. `AnySection` is a filter with no section
      clause; `NoSection` is a clause that no lecture satisfies. */
  datatype SectionClause = SectionIs(section: SectionId) | AnySection | NoSection

  datatype Filter = Filter(section: SectionClause, lower: Bound, upper: Bound)

  predicate AboveLower(o: int, b: Bound) {
    match b
    case Unbounded => true
    case Inclusive(v) => o >= v
    case Exclusive(v) => o > v
  }

  predicate BelowUpper(o: int, b: Bound) {
    match b
    case Unbounded => true
    case Inclusive(v) => o <= v
    case Exclusive(v) => o < v
  }

  predicate Matches(f: Filter, l: Lecture) {
    && (match f.section
        case SectionIs(s) => l.sectionId == s
        case AnySection => true
        case NoSection => false)
    && AboveLower(l.order, f.lower)
    && BelowUpper(l.order, f.upper)
  }

  /** `updateMany(f, { $inc: { order: delta } })`: every matching lecture's
      `order` moves by `delta`; nothing else changes. */
  function UpdateMany(st: Store, f: Filter, delta: int): (r: Store)
    ensures |r| == |st|
    ensures forall i :: 0 <= i < |st| ==>
      r[i] == if Matches(f, st[i]) then st[i].(order := st[i].order + delta) else st[i]
  {
    seq(|st|, i requires 0 <= i < |st| =>
      if Matches(f, st[i]) then st[i].(order := st[i].order + delta) else st[i])
  }

  // ---------------------------------------------------------------------------
  // Point updates (`findByIdAndUpdate`)
  // ---------------------------------------------------------------------------

  /** The fields an update document sets; an absent field is left alone. */
  datatype Patch = Patch(
    sectionId: Option<SectionId>,
    order: Option<int>,
    title: Option<string>,
    videoUrl: Option<string>,
    duration: Option<int>,
    status: Option<Status>)

  const EmptyPatch: Patch := Patch(None, None, None, None, None, None)

  function Pick<T>(p: Option<T>, current: T): T {
    match p
    case Some(v) => v
    case None => current
  }

  function Apply(l: Lecture, p: Patch): (r: Lecture)
    ensures r.id == l.id && r.courseId == l.courseId
  {
    l.(sectionId := Pick(p.sectionId, l.sectionId),
       order := Pick(p.order, l.order),
       title := Pick(p.title, l.title),
       videoUrl := Pick(p.videoUrl, l.videoUrl),
       duration := Pick(p.duration, l.duration),
       status := Pick(p.status, l.status))
  }

  /** Position of the first document with identifier `id`. */
  function Find(st: Store, id: LectureId): (r: Option<nat>)
    ensures r.None? ==> forall i :: 0 <= i < |st| ==> st[i].id != id
    ensures r.Some? ==> r.value < |st| && st[r.value].id == id
    ensures r.Some? ==> forall i :: 0 <= i < r.value ==> st[i].id != id
  {
    if st == [] then None
    else if st[0].id == id then Some(0)
    else match Find(st[1..], id)
      case None => None
      case Some(k) => Some(k + 1)
  }

  /** A store after a write, with the document the call returns (or `None`, the
      source's `null`, when no document has the identifier). */
  datatype Written = Written(store: Store, lecture: Option<Lecture>)

  /** `findByIdAndUpdate(id, patch, { new: returnNew })`: the first document with
      the identifier is patched; the call returns it as it was before the write,
      or after it when `returnNew` holds. */
  function FindByIdAndUpdate(st: Store, id: LectureId, p: Patch, returnNew: bool): (r: Written)
    ensures Find(st, id).None? ==> r == Written(st, None)
    ensures Find(st, id).Some? ==>
      var k := Find(st, id).value;
      && r.store == st[k := Apply(st[k], p)]
      && r.lecture == Some(if returnNew then Apply(st[k], p) else st[k])
  {
    match Find(st, id)
    case None => Written(st, None)
    case Some(k) =>
      var updated := Apply(st[k], p);
      Written(st[k := updated], Some(if returnNew then updated else st[k]))
  }

  // ---------------------------------------------------------------------------
  // The ordering invariant
  // ---------------------------------------------------------------------------

  /** The `order` values of the lectures of section `s`, in store order. */
  function Orders(st: Store, s: SectionId): seq<int> {
    if st == [] then []
    else
      var last := st[|st| - 1];
      Orders(st[..|st| - 1], s) + (if last.sectionId == s then [last.order] else [])
  }

  /** `Orders`, leaving out the lectures whose identifier is `id`. */
  function OrdersExcept(st: Store, s: SectionId, id: LectureId): seq<int> {
    if st == [] then []
    else
      var last := st[|st| - 1];
      OrdersExcept(st[..|st| - 1], s, id)
        + (if last.sectionId == s && last.id != id then [last.order] else [])
  }

  /** The number of lectures in section `s`. */
  function SectionSize(st: Store, s: SectionId): nat {
    |Orders(st, s)|
  }

  /** The section's `order` values are exactly `0, 1, ..., N-1`, each once. */
  predicate SectionContiguous(st: Store, s: SectionId) {
    multiset(Orders(st, s)) == multiset(Range(0, SectionSize(st, s)))
  }

  /** Every section is contiguous. */
  ghost predicate Contiguous(st: Store) {
    forall s :: SectionContiguous(st, s)
  }

  /** Lecture `id` is in the store, in section `s`, at position `order`. */
  predicate SitsAt(st: Store, id: LectureId, s: SectionId, order: int) {
    exists i :: 0 <= i < |st| && st[i].id == id && st[i].sectionId == s && st[i].order == order
  }
}

=== FILE: ordering_facts.dfy ===
/** How a section's `order` values change when a write keeps every lecture's
    identifier and moves the other lectures' positions by a known map. */
module OrderingFacts {
  import opened Ranges
  import opened LectureStore

  lemma {:induction false} OrdersExceptAbsent(st: Store, s: SectionId, id: LectureId)
    requires forall i :: 0 <= i < |st| ==> st[i].id != id
    ensures OrdersExcept(st, s, id) == Orders(st, s)
  {
    if st != [] {
      OrdersExceptAbsent(st[..|st| - 1], s, id);
    }
  }

  /** A section's positions are those of the other lectures plus that of lecture `st[k]`. */
  lemma {:induction false} OrdersSplit(st: Store, s: SectionId, k: int)
    requires UniqueIds(st)
    requires 0 <= k < |st|
    ensures multiset(Orders(st, s))
         == multiset(OrdersExcept(st, s, st[k].id))
          + (if st[k].sectionId == s then multiset{st[k].order} else multiset{})
  {
    var n := |st| - 1;
    var pre := st[..n];
    assert UniqueIds(pre);
    if k == n {
      OrdersExceptAbsent(pre, s, st[k].id);
    } else {
      assert st[n].id != st[k].id;
      assert pre[k] == st[k];
      OrdersSplit(pre, s, k);
    }
  }

  /** If a write keeps identifiers and sections and sends the position of every
      lecture of `s` other than `id` through `f`, the other lectures' positions
      are mapped by `f`. */
  lemma {:induction false} OrdersExceptMap(st: Store, st': Store, s: SectionId, id: LectureId, f: int -> int)
    requires |st'| == |st|
    requires forall i :: 0 <= i < |st| ==> st'[i].id == st[i].id
    requires forall i :: 0 <= i < |st| && st[i].id != id ==>
      && (st'[i].sectionId == s <==> st[i].sectionId == s)
      && (st[i].sectionId == s ==> st'[i].order == f(st[i].order))
    ensures OrdersExcept(st', s, id) == MapSeq(f, OrdersExcept(st, s, id))
  {
    if st != [] {
      var n := |st| - 1;
      OrdersExceptMap(st[..n], st'[..n], s, id, f);
      var tail := if st[n].sectionId == s && st[n].id != id then [st[n].order] else [];
      MapConcat(f, OrdersExcept(st[..n], s, id), tail);
    }
  }

  /** The length of a sequence is the size of its multiset. */
  lemma SizeOfOrders(st: Store, s: SectionId)
    ensures SectionSize(st, s) == |multiset(Orders(st, s))|
  {
  }

  /** Contiguity depends only on the multiset of a section's positions. */
  lemma SameBagSameContiguity(a: Store, b: Store, s: SectionId)
    requires multiset(Orders(a, s)) == multiset(Orders(b, s))
    ensures SectionSize(a, s) == SectionSize(b, s)
    ensures SectionContiguous(a, s) <==> SectionContiguous(b, s)
  {
    SizeOfOrders(a, s);
    SizeOfOrders(b, s);
  }

  /** A section whose positions form the multiset of `Range(0, n)` is contiguous with `n` lectures. */
  lemma ContiguousFromBag(st: Store, s: SectionId, n: nat)
    requires multiset(Orders(st, s)) == multiset(Range(0, n))
    ensures SectionSize(st, s) == n
    ensures SectionContiguous(st, s)
  {
    SizeOfOrders(st, s);
    assert |multiset(Range(0, n))| == n;
  }

  /** The positions of a contiguous section other than `d`, where `d` is one of them. */
  lemma ContiguousWithout(st: Store, s: SectionId, k: int)
    requires UniqueIds(st)
    requires 0 <= k < |st| && st[k].sectionId == s
    requires SectionContiguous(st, s)
    ensures 0 <= st[k].order < SectionSize(st, s)
    ensures multiset(OrdersExcept(st, s, st[k].id)) == multiset(Hole(st[k].order, SectionSize(st, s)))
  {
    var n := SectionSize(st, s);
    var d := st[k].order;
    OrdersSplit(st, s, k);
    assert d in multiset(Range(0, n));
    InRange(0, n, d);
    HoleFill(d, n);
    CancelOne(multiset(OrdersExcept(st, s, st[k].id)), multiset(Hole(d, n)), d);
  }

  /** Appending a lecture adds its position to the end of its own section's list. */
  lemma OrdersOfAppend(st: Store, l: Lecture, s: SectionId)
    ensures Orders(st + [l], s) == Orders(st, s) + (if l.sectionId == s then [l.order] else [])
  {
    assert (st + [l])[..|st|] == st;
  }
}

=== FILE: pagination.dfy ===
/** The pagination arithmetic of the admin listings: the number of records
    skipped before a page, the page count reported to the client, and which
    records a page returns. */
module Pagination {

  /** The offset of a page: the records on the pages before it. The next page
      starts `limit` records later, and a real page with a non-negative limit
      never starts before the first record. */
  function Skip(page: int, limit: int): (r: int)
    ensures r + limit == page * limit
    ensures page >= 1 && limit >= 0 ==> r >= 0
  {
    (page - 1) * limit
  }

  /** The value of `Math.ceil(totalDocuments / limit)` over integer operands:
      a whole number, or the two non-numbers a division by zero yields. */
  datatype PageCount = Pages(n: int) | Infinite | NotANumber

  /** `Math.ceil(totalDocuments / limit)`: for a positive limit, the least page
      count whose pages hold every record; for a negative one, the ceiling of a
      non-positive quotient; for a zero limit, infinity, or not-a-number when
      there are no records either. */
  function TotalPages(total: nat, limit: int): (r: PageCount)
    ensures limit > 0 ==> r.Pages? && r.n >= 0 && r.n * limit >= total && (r.n - 1) * limit < total
    ensures limit < 0 ==> r.Pages? && r.n * limit <= total < (r.n - 1) * limit
    ensures limit == 0 ==> r == if total == 0 then NotANumber else Infinite
  {
    if limit > 0 then
      CeilingOfQuotient(total, limit);
      Pages((total + limit - 1) / limit)
    else if limit < 0 then
      CeilingOfNegativeQuotient(total, -limit);
      Pages(-(total / -limit))
    else if total == 0 then NotANumber
    else Infinite
  }

  /** Rounding `total / limit` up for a positive limit. */
  lemma CeilingOfQuotient(total: nat, limit: int)
    requires limit > 0
    ensures var q := (total + limit - 1) / limit;
      q >= 0 && q * limit >= total && (q - 1) * limit < total
  {
    var q, rem := (total + limit - 1) / limit, (total + limit - 1) % limit;
    assert total + limit - 1 == q * limit + rem;
    assert (q - 1) * limit == q * limit - limit;
  }

  /** `total / -m` rounded up is `-(total / m)` for a positive `m`. */
  lemma CeilingOfNegativeQuotient(total: nat, m: int)
    requires m > 0
    ensures var q := -(total / m);
      q * -m <= total < (q - 1) * -m
  {
    var d, rem := total / m, total % m;
    assert total == d * m + rem;
    assert -d * -m == d * m;
    assert (-d - 1) * -m == d * m + m;
  }

  /** A query with `skip` and `limit` over `total` matching records returns the
      records at positions `[lo, hi)`; a limit of 0 means no limit. */
  datatype Window = Window(lo: nat, hi: nat)

  function Fetch(total: nat, skip: nat, size: nat): (w: Window)
    ensures w.lo <= w.hi <= total
    ensures w.lo == if skip <= total then skip else total
    ensures size > 0 ==> w.hi - w.lo == if total - w.lo < size then total - w.lo else size
    ensures size == 0 ==> w.hi == total
  {
    var lo := if skip <= total then skip else total;
    var hi := if size == 0 || total - lo < size then total else lo + size;
    Window(lo, hi)
  }

  /** The records `getUsers` and `getPaginatedCategories` return: `limit`
      records from the page's offset. */
  function PageWindow(total: nat, page: int, limit: nat): (w: Window)
    requires page >= 1
    ensures limit > 0 ==> w.hi - w.lo <= limit
    ensures w.lo == if Skip(page, limit) <= total then Skip(page, limit) else total
  {
    Fetch(total, Skip(page, limit), limit)
  }

  /** Every record lies on exactly one page, and that page is one the reported
      page count covers. */
  lemma EveryRecordOnOnePage(total: nat, limit: int, i: int)
    requires limit > 0
    requires 0 <= i < total
    ensures var p := i / limit + 1;
      && 1 <= p <= TotalPages(total, limit).n
      && Skip(p, limit) <= i < Skip(p, limit) + limit
      && forall q :: Skip(q, limit) <= i < Skip(q, limit) + limit ==> q == p
  {
    var p := i / limit + 1;
    RecordOnItsPage(total, limit, i);
    forall q | Skip(q, limit) <= i < Skip(q, limit) + limit
      ensures q == p
    {
      OnlyOnePage(limit, i, p, q);
    }
  }

  /** Record `i` lies on page `i / limit + 1`, a page the reported count covers. */
  lemma RecordOnItsPage(total: nat, limit: int, i: int)
    requires limit > 0
    requires 0 <= i < total
    ensures var p := i / limit + 1;
      && 1 <= p <= TotalPages(total, limit).n
      && Skip(p, limit) <= i < Skip(p, limit) + limit
  {
    var p := i / limit + 1;
    var n := TotalPages(total, limit).n;
    assert i == (p - 1) * limit + i % limit;
    assert Skip(p, limit) == (p - 1) * limit;
    assert (p - 1) * limit < n * limit;
    MulCancelLess(p - 1, n, limit);
  }

  /** Two pages holding the same record are the same page. */
  lemma OnlyOnePage(limit: int, i: int, p: int, q: int)
    requires limit > 0
    requires Skip(p, limit) <= i < Skip(p, limit) + limit
    requires Skip(q, limit) <= i < Skip(q, limit) + limit
    ensures p == q
  {
    if q < p {
      MulMonotone(q, p - 1, limit);
    } else if q > p {
      MulMonotone(p, q - 1, limit);
    }
  }

  lemma MulCancelLess(a: int, b: int, k: int)
    requires k > 0 && a * k < b * k
    ensures a < b
  {
    if a >= b {
      MulMonotone(b, a, k);
    }
  }

  lemma MulMonotone(a: int, b: int, k: int)
    requires a <= b && k > 0
    ensures a * k <= b * k
  {
  }

  /** Consecutive pages are adjacent: page `p + 1` starts where page `p` ends,
      until the records run out. */
  lemma PagesAreAdjacent(total: nat, page: int, limit: nat)
    requires page >= 1 && limit > 0
    ensures PageWindow(total, page, limit).hi == PageWindow(total, page + 1, limit).lo
  {
    assert Skip(page + 1, limit) == Skip(page, limit) + limit;
  }

  /** `getInstructorVerificationRequests` and `getCourseReviewRequests` as
      written: the fetch is given `totalDocuments` where the page size belongs. */
  function ReviewPageAsWritten(total: nat, page: int, limit: nat): (w: Window)
    requires page >= 1
    ensures w.lo == if Skip(page, limit) <= total then Skip(page, limit) else total
    ensures w.hi == total
  {
    Fetch(total, Skip(page, limit), total)
  }

  /** On 25 pending requests with pages of 10, the first page as written returns
      all 25; with the page size it returns 10. */
  lemma ReviewPageOverflows()
    ensures ReviewPageAsWritten(25, 1, 10) == Window(0, 25)
    ensures PageWindow(25, 1, 10) == Window(0, 10)
    ensures TotalPages(25, 10) == Pages(3)
  {
  }
}

=== FILE: ranges.dfy ===
/** Integer ranges, pointwise maps over integer sequences, and the facts about
    them that the ordering proofs need. */
module Ranges {

  /** The integers `lo, lo+1, ..., hi-1`, in ascending order (empty when `hi <= lo`). */
  function Range(lo: int, hi: int): (r: seq<int>)
    decreases hi - lo
    ensures |r| == if lo <= hi then hi - lo else 0
    ensures forall i :: 0 <= i < |r| ==> r[i] == lo + i
  {
    if lo < hi then [lo] + Range(lo + 1, hi) else []
  }

  /** Applies `f` to every element. */
  function MapSeq(f: int -> int, xs: seq<int>): (r: seq<int>)
    ensures |r| == |xs|
    ensures forall i :: 0 <= i < |xs| ==> r[i] == f(xs[i])
  {
    if xs == [] then [] else [f(xs[0])] + MapSeq(f, xs[1..])
  }

  lemma MapIdentity(f: int -> int, xs: seq<int>)
    requires forall x :: f(x) == x
    ensures MapSeq(f, xs) == xs
  {
    assert forall i :: 0 <= i < |xs| ==> MapSeq(f, xs)[i] == xs[i];
  }

  /** A range splits at any point inside it. */
  lemma RangeSplit(lo: int, mid: int, hi: int)
    requires lo <= mid <= hi
    ensures Range(lo, mid) + Range(mid, hi) == Range(lo, hi)
  {
  }

  /** Every element of `multiset(Range(lo, hi))` lies in `[lo, hi)`. */
  lemma {:induction false} InRange(lo: int, hi: int, x: int)
    requires x in multiset(Range(lo, hi))
    ensures lo <= x < hi
  {
    var i :| 0 <= i < |Range(lo, hi)| && Range(lo, hi)[i] == x;
  }

  lemma MapConcat(f: int -> int, xs: seq<int>, ys: seq<int>)
    ensures MapSeq(f, xs + ys) == MapSeq(f, xs) + MapSeq(f, ys)
  {
  }

  lemma {:induction false} MapThree(f: int -> int, a: seq<int>, b: seq<int>, c: seq<int>)
    ensures MapSeq(f, a + b + c) == MapSeq(f, a) + MapSeq(f, b) + MapSeq(f, c)
  {
    MapConcat(f, a + b, c);
    MapConcat(f, a, b);
  }

  /** Adding the same element to two multisets keeps them equal exactly when they were. */
  lemma {:induction false} CancelOne<T>(a: multiset<T>, b: multiset<T>, x: T)
    requires a + multiset{x} == b + multiset{x}
    ensures a == b
  {
    forall y
      ensures a[y] == b[y]
    {
      assert (a + multiset{x})[y] == (b + multiset{x})[y];
    }
  }

  /** Taking out the element at `j` takes it out of the multiset. */
  lemma {:induction false} SeqRemove<T>(ys: seq<T>, j: int)
    requires 0 <= j < |ys|
    ensures multiset(ys) == multiset(ys[..j] + ys[j + 1..]) + multiset{ys[j]}
  {
    assert ys == ys[..j] + [ys[j]] + ys[j + 1..];
  }

  /** Taking out the first element takes it out of the multiset. */
  lemma {:induction false} SeqRemoveHead(xs: seq<int>)
    requires xs != []
    ensures multiset(xs) == multiset(xs[1..]) + multiset{xs[0]}
  {
    assert xs == [xs[0]] + xs[1..];
  }

  /** Mapping after taking out the element at `j` takes out its image. */
  lemma {:induction false} MapRemove(f: int -> int, ys: seq<int>, j: int)
    requires 0 <= j < |ys|
    ensures multiset(MapSeq(f, ys)) == multiset(MapSeq(f, ys[..j] + ys[j + 1..])) + multiset{f(ys[j])}
  {
    var pre, post := ys[..j], ys[j + 1..];
    var mpre, mpost := MapSeq(f, pre), MapSeq(f, post);
    assert MapSeq(f, ys) == mpre + [f(ys[j])] + mpost by {
      assert ys == pre + [ys[j]] + post;
      MapThree(f, pre, [ys[j]], post);
      assert MapSeq(f, [ys[j]]) == [f(ys[j])];
    }
    assert MapSeq(f, pre + post) == mpre + mpost by {
      MapConcat(f, pre, post);
    }
  }

  /** Taking the first element out of one permutation and the same value out
      of the other leaves two permutations. */
  lemma {:induction false} PermutationRemove(xs: seq<int>, ys: seq<int>, j: int)
    requires multiset(xs) == multiset(ys)
    requires xs != [] && 0 <= j < |ys| && ys[j] == xs[0]
    ensures multiset(xs[1..]) == multiset(ys[..j] + ys[j + 1..])
  {
    var tail, rest := xs[1..], ys[..j] + ys[j + 1..];
    SeqRemoveHead(xs);
    SeqRemove(ys, j);
    CancelOne(multiset(tail), multiset(rest), xs[0]);
  }

  /** Mapping two sequences that are permutations of each other yields two
      sequences that are permutations of each other. */
  lemma {:induction false} MapPermutation(f: int -> int, xs: seq<int>, ys: seq<int>)
    requires multiset(xs) == multiset(ys)
    ensures multiset(MapSeq(f, xs)) == multiset(MapSeq(f, ys))
    decreases |xs|
  {
    if xs == [] {
      assert ys == [] by {
        assert |multiset(ys)| == 0;
      }
    } else {
      assert xs[0] in multiset(ys) by {
        assert xs[0] in multiset(xs);
      }
      var j :| 0 <= j < |ys| && ys[j] == xs[0];
      PermutationRemove(xs, ys, j);
      MapPermutation(f, xs[1..], ys[..j] + ys[j + 1..]);
      assert xs[..0] + xs[1..] == xs[1..];
      MapRemove(f, xs, 0);
      MapRemove(f, ys, j);
    }
  }

  /** Non-decreasing. */
  predicate Ascending(xs: seq<int>) {
    forall i, j :: 0 <= i < j < |xs| ==> xs[i] <= xs[j]
  }

  lemma {:induction false} AscendingTail(xs: seq<int>)
    requires Ascending(xs) && xs != []
    ensures Ascending(xs[1..])
  {
    forall i, k | 0 <= i < k < |xs[1..]|
      ensures xs[1..][i] <= xs[1..][k]
    {
      assert xs[1..][i] == xs[i + 1] && xs[1..][k] == xs[k + 1];
    }
  }

  /** The first element of a non-decreasing sequence is its least element. */
  lemma {:induction false} AscendingHeadIsLeast(xs: seq<int>, y: int)
    requires Ascending(xs) && y in multiset(xs)
    ensures xs[0] <= y
  {
    var j :| 0 <= j < |xs| && xs[j] == y;
    assert j == 0 || xs[0] <= xs[j];
  }

  /** A non-empty range starts with its lower bound. */
  lemma {:induction false} RangeHead(lo: int, hi: int)
    requires lo < hi
    ensures Range(lo, hi) == [lo] + Range(lo + 1, hi)
    ensures multiset(Range(lo, hi)) == multiset(Range(lo + 1, hi)) + multiset{lo}
  {
    assert Range(lo, hi) == [lo] + Range(lo + 1, hi);
  }

  /** A non-decreasing sequence holding exactly the integers of `[lo, hi)`
      starts with `lo`, and its tail holds exactly those of `[lo + 1, hi)`. */
  lemma {:induction false} SortedRangeHead(xs: seq<int>, lo: int, hi: int)
    requires Ascending(xs) && xs != []
    requires multiset(xs) == multiset(Range(lo, hi))
    ensures lo < hi && xs[0] == lo
    ensures multiset(xs[1..]) == multiset(Range(lo + 1, hi))
  {
    var x, tail := xs[0], xs[1..];
    assert x in multiset(Range(lo, hi)) by {
      assert x in multiset(xs);
    }
    InRange(lo, hi, x);
    RangeHead(lo, hi);
    assert x == lo by {
      assert lo in multiset(xs);
      AscendingHeadIsLeast(xs, lo);
    }
    SeqRemoveHead(xs);
    CancelOne(multiset(tail), multiset(Range(lo + 1, hi)), lo);
  }

  /** A non-decreasing sequence holding exactly the integers of `[lo, hi)` is `Range(lo, hi)`. */
  lemma {:induction false} SortedRangeIsRange(xs: seq<int>, lo: int, hi: int)
    requires Ascending(xs)
    requires multiset(xs) == multiset(Range(lo, hi))
    ensures xs == Range(lo, hi)
    decreases |xs|
  {
    if xs == [] {
      assert |Range(lo, hi)| == 0 by {
        assert |multiset(Range(lo, hi))| == 0;
      }
    } else {
      SortedRangeHead(xs, lo, hi);
      AscendingTail(xs);
      SortedRangeIsRange(xs[1..], lo + 1, hi);
      assert xs == [xs[0]] + xs[1..];
    }
  }

  /** `Range(0, n)` without the position `p`. */
  function Hole(p: int, n: int): (r: seq<int>)
    requires 0 <= p < n
    ensures |r| == n - 1
    ensures forall i :: 0 <= i < n - 1 ==> r[i] == if i < p then i else i + 1
  {
    Range(0, p) + Range(p + 1, n)
  }

  /** Putting `p` back into the hole gives the full range. */
  lemma {:induction false} HoleFill(p: int, n: int)
    requires 0 <= p < n
    ensures multiset(Hole(p, n)) + multiset{p} == multiset(Range(0, n))
  {
    var r, h := Range(0, n), Hole(p, n);
    SeqRemove(r, p);
    forall i | 0 <= i < n - 1
      ensures (r[..p] + r[p + 1..])[i] == h[i]
    {
    }
    assert r[..p] + r[p + 1..] == h;
  }

  // The position maps the move operations apply to the positions of the
  // lectures that are not being moved, and their images on the positions left
  // around the moved one.

  /** Moving a lecture from `d` to `t` in its own section: moving earlier
      shifts `[t, d)` up by one, moving later shifts `(d, t]` down by one. */
  function WithinShift(d: int, t: int): int -> int {
    (x: int) =>
      if d > t then (if t <= x < d then x + 1 else x)
      else (if d < x <= t then x - 1 else x)
  }

  /** Taking the lecture at `d` out of its section: everything above it shifts down by one. */
  function CloseShift(d: int): int -> int {
    (x: int) => if x > d then x - 1 else x
  }

  /** Opening a slot at `t`: everything at or above it shifts up by one. */
  function OpenShift(t: int): int -> int {
    (x: int) => if x >= t then x + 1 else x
  }

  lemma {:induction false} WithinImage(d: int, t: int, n: int)
    requires 0 <= d < n && 0 <= t < n
    ensures multiset(MapSeq(WithinShift(d, t), Hole(d, n))) == multiset(Hole(t, n))
  {
    var f, before, after := WithinShift(d, t), Hole(d, n), Hole(t, n);
    forall i | 0 <= i < n - 1
      ensures MapSeq(f, before)[i] == after[i]
    {
      assert f(before[i]) == after[i];
    }
    assert MapSeq(f, before) == after;
  }

  lemma {:induction false} CloseGapImage(d: int, n: int)
    requires 0 <= d < n
    ensures multiset(MapSeq(CloseShift(d), Hole(d, n))) == multiset(Range(0, n - 1))
  {
    var f, before, after := CloseShift(d), Hole(d, n), Range(0, n - 1);
    forall i | 0 <= i < n - 1
      ensures MapSeq(f, before)[i] == after[i]
    {
      assert f(before[i]) == after[i];
    }
    assert MapSeq(f, before) == after;
  }

  lemma {:induction false} OpenGapImage(t: int, n: int)
    requires 0 <= t <= n
    ensures multiset(MapSeq(OpenShift(t), Range(0, n))) == multiset(Hole(t, n + 1))
  {
    var f, before, after := OpenShift(t), Range(0, n), Hole(t, n + 1);
    forall i | 0 <= i < n
      ensures MapSeq(f, before)[i] == after[i]
    {
      assert f(before[i]) == after[i];
    }
    assert MapSeq(f, before) == after;
  }
}

=== FILE: wrappers.dfy ===
/** Option and Result datatypes used for the repository's nullable returns and
    for the errors its services throw. */
module Wrappers {

  datatype Option<+T> = None | Some(value: T)

  datatype Result<+R, +E> = Success(value: R) | Failure(error: E)
}
